=== FILE: README.md ===
# mcp-gateway in Dafny

A model of the core of `mcp-gateway`, an MCP server that exposes a fixed set of
tools. Some tools call the invest-intel HTTP API through a retrying client.
Others read JSON files that the auto-trader leaves on disk, or launch the
report-builder and robot-modeler Python programs.

The model has these parts:

- `client.dfy` (`Client`): the `fetchWithRetry` state machine of
  `lib/invest-intel-client.js`. It is a pure function over an oracle, one
  `Attempt` for each attempt. An attempt is a 2xx response with its decoded
  body, a non-2xx response with its body text and parse result, or a thrown
  error with its `name`, `message` and `cause.code`. The function returns a
  `Trace`: the request sent, the value or final error message, the number of
  attempts, and the backoff delays slept. The file also has an imperative
  version of the same loop (`FetchWithRetryLoop`), proved equal to the
  function, and the endpoint wrappers that build paths and POST bodies.
- `invest_quant.dfy` (`InvestQuant`): the stock-code and number constraints of
  the three quant tools, and their projections of the client's answer.
- `report_builder.dfy` (`ReportBuilder`): path and extension checks, the
  argument lists of `report_generate` and `report_validate`, and the template
  listing filter.
- `robot_modeler.dfy` (`RobotModeler`): the `xmlPath` check, the `scenarios`
  range, and the argument lists of the three robot tools.
- `auto_trader.dfy` (`AutoTrader`): the holdings count of `trader_summary`, the
  field renaming of `trader_holdings`, and the newest-first selection of
  `trader_trades`.
- `js.dfy` (`Js`): JSON-shaped JavaScript values, plus the JavaScript
  semantics the handlers rely on: truthiness, `||`, property reads that throw
  on `null`/`undefined`, and `String(v)`.
- `strings.dfy` (`Strings`), `tool.dfy` (`Tool`) and `wrappers.dfy`
  (`Wrappers`): prefix/suffix tests, decimal rendering with its inverse, and
  handler results and process invocations. `Tool` also has `FlagValue`, the
  model's own flag reader: it takes the argument after the first occurrence
  of a flag. The Python programs' real argument parsing is not part of this
  model. The `*ArgsDecode` lemmas use `FlagValue` to show that each argument
  list is unambiguous: reading it back gives the caller's inputs.

A handler's result is `Text(value)` for `txt(value)` and `Error(message)` for
`err(message)`. An exception that escapes a handler with no `try` is
`Crash(message)`. When the input schema refuses arguments, the result is
`InvalidArguments(fields)`.

Behaviour worth knowing, as the code implements it:

- A 2xx response whose body `res.json()` cannot decode is retried like any
  other thrown error, because line 44 is inside the `try`.
- The `error` field of a failing response is used whenever it is truthy. A
  non-string field becomes the message through `String()`.
- With three attempts, the 4000 ms step of the backoff formula is never
  slept. `Client.BackoffSchedule` still states the whole formula.
- The deadline timer is not cleared when `fetch` rejects, because line 34 is
  skipped. The model has no timers, so it claims nothing about clearing them.
- `server.js` registers only the quant, trader and echo tools. The report and
  robot tools are modelled as they are written.

## Model

| member | source | states |
|---|---|---|
| `Client.BuildRequest` | lib/invest-intel-client.js:18-33 | The URL is `BASE_URL` followed by the path. The caller's headers are kept. `Content-Type: application/json` is present unless the caller overrides it. The method defaults to GET. |
| `Client.Loop` | lib/invest-intel-client.js:21-66 | From any attempt on, the loop stops at the first success or refusal, or after attempt 3. It sleeps `Backoff(k)` after each earlier attempt `k`. It reports what the last attempt produced. |
| `Client.FetchWithRetry` | lib/invest-intel-client.js:17-69 | The call makes 1 to 3 attempts. Every attempt before the last was retryable. Stopping before 3 means the last attempt succeeded or was refused. The result is that last attempt's value, refusal message or recorded error. Delays are `Backoff(1..attempts-1)`. |
| `Client.FetchWithRetryLoop` | lib/invest-intel-client.js:19-68 | The counted loop with a mutable `lastError`, an early return and an early throw. It computes the same result, attempt count and delays as `FetchWithRetry`. Its loop invariants track only the attempts made so far, the last error and the pauses slept. |
| `Client.AgreesWithFetch` | lib/invest-intel-client.js:21-68 | The stopping rule determines the call. Suppose attempt `n` follows `n-1` retryable attempts and, when `n < 3`, is itself not retryable, and the pauses are `Backoff(1..n-1)`. Then that is exactly the trace of `FetchWithRetry`, and the result settles attempt `n`. |
| `Client.BackoffSchedule` | lib/invest-intel-client.js:61-64 | The delays are 1000, 2000, 4000, then 5000 for every later attempt. They never decrease and never exceed the cap. |
| `Client.TotalSleepBound` | lib/invest-intel-client.js:61-64 | A call sleeps at most 3000 ms in total. It sleeps exactly 3000 ms iff it used all three attempts. |
| `Client.FirstSuccessReturns` | lib/invest-intel-client.js:36-44 | The first successful attempt `i` returns its decoded body. It ends the call after `i+1` attempts and `i` delays. |
| `Client.RefusalEndsCall` | lib/invest-intel-client.js:53-58 | A refused connection raises the refusal message at once, even on attempt 1. No further attempts or delays follow. |
| `Client.RefusalIgnoresPath` | lib/invest-intel-client.js:54-57 | The refusal message is the same whatever path was called. It embeds `BASE_URL` at a fixed position. |
| `Client.ExhaustedLastErrorWins` | lib/invest-intel-client.js:46-68 | When all three attempts are retryable failures, the call fails with the error recorded for attempt 3, after delays [1000, 2000]. |
| `Client.TimeoutIsRetried` | lib/invest-intel-client.js:48-51 | An aborted attempt is retried if attempts remain. If it was the last attempt, the call raises the timeout message for the full URL. |
| `Client.TimeoutMessageText` | lib/invest-intel-client.js:49-51 | The timeout message is `타임아웃 (15000ms): ` followed by the full URL. |
| `Client.OnlyConsumedAttemptsMatter` | lib/invest-intel-client.js:21-44 | Two oracles that agree on the attempts actually made give identical traces. No later attempt is observed. |
| `Client.HttpMessageFromErrorField` | lib/invest-intel-client.js:37-41 | A parsed body with a non-empty string `error` field supplies the message verbatim. |
| `Client.HttpMessageWithoutErrorField` | lib/invest-intel-client.js:37-40 | Otherwise the message is `HTTP `, the status (which reads back exactly), `: ` and the first min(\|body\|, 200) characters of the body. An unreadable body counts as empty. |
| `Client.RecoversAfterTwoServerErrors` | lib/invest-intel-client.js:36-64 | Two HTTP 500 answers with `{"error":"db down"}` followed by a success return the third answer, after 3 attempts and pauses of 1000 and 2000 ms. |
| `Client.TraderReadRequests` | lib/invest-intel-client.js:109-119 | `getSummary` and `getHoldings` are body-less GETs of `/api/trader/summary` and `/api/trader/holdings` with the JSON content type. |
| `Client.WrapperHeaders` | lib/invest-intel-client.js:29-32 | A caller that passes no headers sends exactly `{Content-Type: application/json}`. |
| `Client.FundamentalRequest` | lib/invest-intel-client.js:77-79 | `getFundamental` is a GET with no body. Its URL starts with `BASE_URL/api/quant/fundamental/`, and the stock code reads back from the rest of the URL. |
| `Client.AdvisoryRequests` | lib/invest-intel-client.js:85-101 | Both advisories are JSON POSTs to fixed paths. Their body has exactly their three argument fields. An omitted optional argument is `undefined`. |
| `Client.TradesRequest` | lib/invest-intel-client.js:125-126 | `getTrades` is a GET to `/api/trader/trades?limit=`. The query value is the limit's string form, or exactly `10` when no limit is given. |
| `Strings.NatToStringRoundTrip` | lib/invest-intel-client.js:40 | The decimal rendering used for the status in `HTTP ${status}` reads back to the same number. |
| `Strings.CanonicalDigitsRoundTrip` | lib/invest-intel-client.js:40 | A digit string with no leading zero is the rendering of its own value, so the rendering is a bijection onto such strings. |
| `Client.OptionalErrorRead` | lib/invest-intel-client.js:40 | `parsed?.error` yields `undefined` exactly where the plain read `parsed.error` (the kind of read on line 17 of `tools/invest-quant.js`) would throw. That is for a `null` result: a body that did not parse, or the JSON text `null`. Everywhere else it yields the same field. |
| `InvestQuant.PaddedCode` | tools/invest-quant.js:4 | Zero-padding any number below 10^6 to six digits gives an accepted stock code that reads back to that number. |
| `InvestQuant.StockCodeRoundTrip` | tools/invest-quant.js:4 | Every accepted stock code (exactly six ASCII digits) is the zero-padded rendering of its own value. So the accepted codes are exactly 000000..999999. |
| `InvestQuant.BuyIssues` | tools/invest-quant.js:32-36 | Buy advice is refused iff the code is not six digits, `currentPrice <= 0`, or a given `technicalScore` lies outside [0, 100]. |
| `InvestQuant.SellIssues` | tools/invest-quant.js:52-56 | Sell advice is refused iff the code is not six digits or a given `currentPrice` is not positive. `profitRate` is unconstrained. |
| `InvestQuant.FundamentalReply` | tools/invest-quant.js:14-27 | A client error becomes an error with its message. A `null` body gives the TypeError. A falsy `available` gives `펀더멘털 데이터 없음` and no scores. Otherwise the output has exactly score plus the four sub-scores. Each sub-score is copied from `breakdown` when that is an object holding the key. It is `undefined` otherwise: for a missing key, a falsy `breakdown`, or a truthy non-object such as `[]`, `"n/a"` or `1`. |
| `InvestQuant.BuyReply` | tools/invest-quant.js:37-47 | The buy output has exactly the keys approved, confidence, positionSize and reasons, each copied from the response. A client error becomes an error with its message. |
| `InvestQuant.SellReply` | tools/invest-quant.js:57-66 | The sell output has exactly the keys approved, reason and reasons, each copied from the response. A client error becomes an error with its message. |
| `InvestQuant.QuantFundamental` | tools/invest-quant.js:11-27 | The tool is refused iff the code is invalid. For a valid code, a refused connection surfaces the refusal message, and a response with no `available` field gives the no-data error. |
| `InvestQuant.QuantBuyAdvisory` | tools/invest-quant.js:30-47 | The tool is refused iff the schema finds issues. A refused connection surfaces the refusal message. A first-attempt success yields exactly the four projected fields. |
| `InvestQuant.QuantSellAdvisory` | tools/invest-quant.js:50-66 | The tool is refused iff the schema finds issues. A refused connection surfaces the refusal message. A first-attempt success yields exactly the three projected fields. |
| `ReportBuilder.GeneratePlan` | tools/report-builder.js:26-42 | A process is launched iff both paths are absolute, the input ends in .xlsx/.xls and the config ends in .yaml/.yml. Otherwise the first failing check, in source order, gives the message. The argv is `main.py --input in --config cfg --json`, plus `--output out` only for a non-empty output file. |
| `ReportBuilder.ValidatePlan` | tools/report-builder.js:56-71 | Same as `GeneratePlan`, but the report must end in .xlsx and the optional flag is `--source`. |
| `ReportBuilder.XlsOnlyForGeneration` | tools/report-builder.js:60-61 | An absolute `.xls` path is accepted as a generator input but refused as a report to validate. |
| `ReportBuilder.GenerateArgsDecode` | tools/report-builder.js:36-37 | Reading flags from the generator argv gives back exactly the input, config and (given) output paths. |
| `ReportBuilder.ValidateArgsDecode` | tools/report-builder.js:65-66 | Reading flags from the validator argv gives back exactly the report, config and (given) source paths. |
| `ReportBuilder.ReportGenerate` | tools/report-builder.js:26-46 | The reply is text iff the paths pass the four checks, the builder exits and its stdout parses, and then it is the parsed value. A failed check gives one of the path messages. A failed process gives its stderr, or its message when stderr is empty. A parse failure gives the parse error. Nothing escapes the `try`. |
| `ReportBuilder.ReportValidate` | tools/report-builder.js:56-75 | The same as `report_generate`, for the validator's checks: the reply is text iff the checks pass, the validator exits and its stdout parses. |
| `ReportBuilder.TemplateFilter` | tools/report-builder.js:84-89 | The templates are exactly the `.yaml`/`.yml` entries, each paired with `join(dir, name)`. |
| `ReportBuilder.TemplateFilterAppend` | tools/report-builder.js:84-85 | Filtering preserves directory order: filtering a concatenation is the concatenation of the filtered parts. |
| `ReportBuilder.ReportListTemplates` | tools/report-builder.js:81-94 | A failed directory read gives an error with the thrown message. Otherwise the result is an object whose only key is `templates`. Its array is the filtered listing in directory order, one `{name, path}` entry per kept name, so it is no longer than the listing. It holds `{name, path: join(BUILDER_PATH/templates, name)}` iff `name` is a `.yaml`/`.yml` entry of the listing. |
| `RobotModeler.CliIsNotFlag` | tools/robot-modeler.js:9 | The CLI path, `ROBOT_PATH + "/src/cli.py"`, can never equal one of the CLI's flags. |
| `RobotModeler.DesignArgsDecode` | tools/robot-modeler.js:22-29 | The launch runs `python3` in `ROBOT_PATH` with the argv `[ROBOT_PATH/src/cli.py, pipeline, prompt, --scenarios, 20]`. The prompt reads back as the one argument after `pipeline`, whatever it contains. A flag reader gets the count 20 back iff the prompt is not itself `--scenarios`. The launch has a 180 s timeout and `PYTHONPATH=ROBOT_PATH/src`. |
| `RobotModeler.DesignReply` | tools/robot-modeler.js:30-33 | The output is stdout. `warnings` is stderr itself when stderr is non-empty, and `null` otherwise. A failure yields stderr, or the message. |
| `RobotModeler.CriticPlan` | tools/robot-modeler.js:43-55 | A non-absolute `xmlPath` is refused before any argv is built. Otherwise `python3` runs in `ROBOT_PATH` with a 60 s timeout and `PYTHONPATH=ROBOT_PATH/src`. The argv is `[CLI, critic, xmlPath]`, then `--json path` if one is given, then `--gemini` (last) if set. |
| `RobotModeler.CriticArgsDecode` | tools/robot-modeler.js:47-49 | The JSON path reads back iff it was given. `--gemini` appears iff it was set or the JSON path is literally `--gemini`. |
| `RobotModeler.ScenariosArgValue` | tools/robot-modeler.js:67-74 | For accepted input, the scenario argument is a digit string whose value is the caller's count, or 50, and lies in [5, 200]. |
| `RobotModeler.StressPlan` | tools/robot-modeler.js:70-81 | A non-absolute `xmlPath` is refused. Otherwise `python3` runs in `ROBOT_PATH` with a 300 s timeout and `PYTHONPATH=ROBOT_PATH/src`. The argv is `[CLI, stress, xmlPath, --scenarios, String(scenarios \|\| 50)]`, plus `--json path` if given. |
| `RobotModeler.StressArgsDecode` | tools/robot-modeler.js:74-75 | Reading flags from the stress argv gives back the scenario count, which is in [5, 200], and the given JSON path. |
| `RobotModeler.RobotCritic` | tools/robot-modeler.js:43-59 | The reply is `{output: stdout}` iff `xmlPath` is absolute and the CLI exits. A relative path gives the absolute-path error. A failed process gives its stderr, or its message when stderr is empty. Nothing escapes the `try`. |
| `RobotModeler.RobotStressTest` | tools/robot-modeler.js:62-86 | The tool is refused iff `scenarios` is not an integer in [5, 200]. The reply is `{output: stdout}` iff the call is valid, `xmlPath` is absolute and the CLI exits. A valid call with a relative `xmlPath` gives the absolute-path error. A failed process gives its stderr, or its message. |
| `AutoTrader.TraderSummary` | tools/auto-trader.js:21-35 | An unreadable or falsy file gives the `git pull` error. Any other file gives a text reply, whose output has exactly five keys. `holdings` is the array's length, 0 when holdings are falsy, and `(holdings).length` for any other value: `undefined` for an object, so the key drops out of the JSON text, and the character count for a string. The figures `deposit`, `evaluation` and `profit` are copied from `summary.totalDeposit`, `totalEvaluation` and `totalProfit` when `summary` is truthy, and are `undefined` otherwise. `lastUpdated` is copied. |
| `AutoTrader.SummaryCountsListedHoldings` | tools/auto-trader.js:27-49 | Whenever `trader_holdings` lists rows, `trader_summary` on the same file is a text reply whose `holdings` count is exactly the number of rows. |
| `AutoTrader.MapHoldings` | tools/auto-trader.js:45-49 | Mapping succeeds iff no holding is `null`/`undefined`. On success it keeps length and order, and each row has quantity→qty, currentPrice→price and profitRate→profit. On failure it throws for the first `null` holding. |
| `AutoTrader.TraderHoldings` | tools/auto-trader.js:38-50 | A missing file gives the `git pull` error. Absent holdings give `[]`. A truthy non-array crashes the handler with `items.map is not a function` (there is no `try`). For an array, a `null`/`undefined` holding crashes the handler with the TypeError of the first such holding. Otherwise the reply is the mapped rows, with the holdings' length and order. |
| `AutoTrader.EffectiveLimit` | tools/auto-trader.js:56-62 | An accepted limit is an integer in [1, 50]. No limit means 10. |
| `AutoTrader.LastN` | tools/auto-trader.js:62 | For k ≥ 1, `slice(-k)` keeps the last min(k, n) elements, in order. |
| `AutoTrader.Reverse` | tools/auto-trader.js:62 | `reverse()` keeps the length and mirrors the positions. |
| `AutoTrader.TraderTrades` | tools/auto-trader.js:53-63 | The tool is refused iff the limit is invalid. A missing or falsy file gives the `git pull` error. Non-array data gives `[]`. Otherwise the result is the last min(limit, n) trades, newest first. |

## Left out

- Networking, `AbortController`, `setTimeout` and the sleeps themselves. An abort is an `Attempt` whose `name` is `AbortError`, and a delay is a returned number.
- JSON parsing and `JSON.stringify`. A parse result is supplied with each response or file, and the value handed to `txt` stands for its JSON text. In that text, a field holding `undefined` is dropped.
- Number formatting. A `Number` carries the text `String()` gives for it. `Canonical` pins that text down for the non-negative integers where it matters.
- `Client.FetchWithRetry`: the oracle must supply at least three attempts. This requirement belongs to the model, not to the source.
- Header names are compared exactly. `fetch` merges `content-type` and `Content-Type` case-insensitively, and the model does not.
- String lengths and `slice` count Unicode scalar values, whereas JavaScript counts UTF-16 code units. The two differ only for characters outside the Basic Multilingual Plane.
- `Js.Get` answers only `length` on arrays and strings. It ignores inherited properties. No key the handlers read is an array index or an inherited name.
- `ReportBuilder.JoinPath`: `path.join` is modelled for a normalised directory and a plain entry name. The normalisation of `.`, `..` and repeated `/` in a configured base path is not modelled.
- The zod machinery. Only the constraints are modelled, as predicates over arguments that already have the right JSON type. Type mismatches and zod's error texts are not modelled: a refusal names only the refused fields.
- `execFile`, the Python programs and their 60/180/300 s timeouts. A process is an `Invocation`, and what it does is an `ExecResult` input.
- `readFileSync` and `readdirSync`. File contents and directory listings are inputs. The paths read from environment variables, and their defaults, are parameters: `baseUrl`, `ReportBuilder.Config` and `robotPath`.
- `tools/anti-echo-chamber.js`, `tools/notion-portfolio.js`, `tools/diagnostics.js` and `server.js`. They are a dynamically loaded module wrapper, an import passthrough, a network and environment probe, and server wiring, and none of them is part of this model.

=== FILE: auto_trader.dfy ===
/**
 * The auto-trader tools (`tools/auto-trader.js`), which read JSON files the
 * trader leaves on disk. A file is an input: `Some(v)` is what `JSON.parse`
 * made of it, `None` means reading or parsing it threw.
 */
module AutoTrader {
  import opened Wrappers
  import opened Strings
  import opened Js
  import opened Tool

  const PortfolioMissing: string := "portfolio.json 없음. git pull 필요."
  const TradesMissing: string := "trades.json 없음. git pull 필요."
  const NotAFunction: string := "items.map is not a function"
  const DefaultLimit: nat := 10
  const MinLimit: nat := 1
  const MaxLimit: nat := 50

  /** `readJson(filename)`: the parsed file, or `null` when it could not be read or parsed. */
  function ReadJson(file: Option<JsValue>): JsValue {
    file.GetOr(Null)
  }

  // ----- trader_summary -----

  const SummaryKeys: set<string> := {"holdings", "deposit", "evaluation", "profit", "lastUpdated"}

  /** `trader_summary`: a count of the holdings and four copied figures. */
  function TraderSummary(file: Option<JsValue>): (r: HandlerResult)
    ensures r.Text? <==> Truthy(ReadJson(file))
    ensures !Truthy(ReadJson(file)) ==> r == Error(PortfolioMissing)
    ensures r.Text? ==>
      var data := file.value;
      var holdings := Get(data, "holdings");
      && r.value.Obj? && r.value.fields.Keys == SummaryKeys
      && (holdings.Arr? ==> r.value.fields["holdings"] == Num(NatNumber(|holdings.elems|)))
      && (!Truthy(holdings) ==> r.value.fields["holdings"] == Num(NatNumber(0)))
      && (Truthy(holdings) && !holdings.Arr? ==> r.value.fields["holdings"] == Get(holdings, "length"))
      && r.value.fields["lastUpdated"] == Get(data, "lastUpdated")
      && (!Truthy(Get(data, "summary")) ==>
            r.value.fields["deposit"] == Undefined && r.value.fields["evaluation"] == Undefined
            && r.value.fields["profit"] == Undefined)
      && (Truthy(Get(data, "summary")) ==>
            var s := Get(data, "summary");
            && r.value.fields["deposit"] == Get(s, "totalDeposit")
            && r.value.fields["evaluation"] == Get(s, "totalEvaluation")
            && r.value.fields["profit"] == Get(s, "totalProfit"))
  {
    var data := ReadJson(file);
    if !Truthy(data) then Error(PortfolioMissing)
    else
      var s := Or(Get(data, "summary"), Obj(map[]));
      Text(Obj(map[
        "holdings" := Get(Or(Get(data, "holdings"), Arr([])), "length"),
        "deposit" := Get(s, "totalDeposit"),
        "evaluation" := Get(s, "totalEvaluation"),
        "profit" := Get(s, "totalProfit"),
        "lastUpdated" := Get(data, "lastUpdated")]))
  }

  // ----- trader_holdings -----

  /** One holding as `trader_holdings` reports it: six fields, three of them renamed. */
  function HoldingRow(h: JsValue): JsValue
    requires !Nullish(h)
  {
    Obj(map[
      "code" := Get(h, "code"),
      "name" := Get(h, "name"),
      "qty" := Get(h, "quantity"),
      "avgPrice" := Get(h, "avgPrice"),
      "price" := Get(h, "currentPrice"),
      "profit" := Get(h, "profitRate")])
  }

  /** `items.map(h => …)`, which throws at the first `null` entry when it reads `h.code`. */
  function MapHoldings(hs: seq<JsValue>): (r: Result<seq<JsValue>, string>)
    ensures r.Success? <==> forall i :: 0 <= i < |hs| ==> !Nullish(hs[i])
    ensures r.Success? ==> |r.value| == |hs| && forall i :: 0 <= i < |hs| ==> r.value[i] == HoldingRow(hs[i])
    ensures r.Failure? ==>
      exists i :: (0 <= i < |hs| && Nullish(hs[i]) && r.error == ReadError(hs[i], "code")
                   && forall j :: 0 <= j < i ==> !Nullish(hs[j]))
  {
    if hs == [] then Success([])
    else if Nullish(hs[0]) then Failure(ReadError(hs[0], "code"))
    else
      match MapHoldings(hs[1..])
      case Failure(e) =>
        Failure(e)
      case Success(rows) => Success([HoldingRow(hs[0])] + rows)
  }

  /** `trader_holdings`; it has no `try`, so a failing `map` escapes the handler. */
  function TraderHoldings(file: Option<JsValue>): (r: HandlerResult)
    ensures !Truthy(ReadJson(file)) <==> r == Error(PortfolioMissing)
    ensures Truthy(ReadJson(file)) && !Truthy(Get(file.value, "holdings")) ==> r == Text(Arr([]))
    ensures Truthy(ReadJson(file)) && Truthy(Get(file.value, "holdings")) && !Get(file.value, "holdings").Arr?
      ==> r == Crash(NotAFunction)
    ensures Truthy(ReadJson(file)) && Get(file.value, "holdings").Arr? ==>
      var rows := MapHoldings(Get(file.value, "holdings").elems);
      && (rows.Success? ==> r == Text(Arr(rows.value)))
      && (rows.Failure? ==> r == Crash(rows.error))
    ensures r.Text? ==>
      var items := Or(Get(file.value, "holdings"), Arr([]));
      && items.Arr? && r.value.Arr? && |r.value.elems| == |items.elems|
      && forall i :: 0 <= i < |items.elems| ==>
           !Nullish(items.elems[i]) && r.value.elems[i] == HoldingRow(items.elems[i])
  {
    var data := ReadJson(file);
    if !Truthy(data) then Error(PortfolioMissing)
    else
      match Or(Get(data, "holdings"), Arr([]))
      case Arr(hs) =>
        (match MapHoldings(hs)
         case Success(rows) => Text(Arr(rows))
         case Failure(e) => Crash(e))
      case _ => Crash(NotAFunction)
  }

  /** When `trader_holdings` lists rows, `trader_summary` counts exactly that many holdings. */
  lemma SummaryCountsListedHoldings(file: Option<JsValue>)
    requires TraderHoldings(file).Text?
    ensures var rows := TraderHoldings(file).value;
      && rows.Arr? && TraderSummary(file).Text?
      && TraderSummary(file).value.fields["holdings"] == Num(NatNumber(|rows.elems|))
  {
  }

  // ----- trader_trades -----

  /** What `trader_trades`' schema accepts for `limit`: an integer in [1, 50], or nothing. */
  predicate LimitValid(limit: Option<Number>) {
    limit.None? || (Integral(limit.value) && MinLimit as real <= limit.value.value <= MaxLimit as real)
  }

  /** `limit || 10` for an accepted `limit`. */
  function EffectiveLimit(limit: Option<Number>): (k: nat)
    requires LimitValid(limit)
    ensures MinLimit <= k <= MaxLimit
    ensures limit.None? ==> k == DefaultLimit
    ensures limit.Some? ==> k as real == limit.value.value
  {
    if limit.Some? then limit.value.value.Floor as nat else DefaultLimit
  }

  /** `s.slice(-k)` for a positive `k`: the last `k` elements, or all of them. */
  function LastN<T>(s: seq<T>, k: nat): (r: seq<T>)
    requires 1 <= k
    ensures |r| == if k < |s| then k else |s|
    ensures forall i :: 0 <= i < |r| ==> r[i] == s[|s| - |r| + i]
  {
    if k < |s| then s[|s| - k..] else s
  }

  /** `reverse()` on a copy. */
  function Reverse<T>(s: seq<T>): (r: seq<T>)
    ensures |r| == |s|
    ensures forall i :: 0 <= i < |s| ==> r[i] == s[|s| - 1 - i]
  {
    if s == [] then [] else Reverse(s[1..]) + [s[0]]
  }

  /** `trader_trades`: the newest `limit` (default 10) trades, newest first. */
  function TraderTrades(limit: Option<Number>, file: Option<JsValue>): (r: HandlerResult)
    ensures r.InvalidArguments? <==> !LimitValid(limit)
    ensures LimitValid(limit) ==> (!Truthy(ReadJson(file)) <==> r == Error(TradesMissing))
    ensures LimitValid(limit) && Truthy(ReadJson(file)) && !file.value.Arr? ==> r == Text(Arr([]))
    ensures (LimitValid(limit) && Truthy(ReadJson(file)) && file.value.Arr?) ==>
      var trades := file.value.elems;
      var k := EffectiveLimit(limit);
      && r.Text? && r.value.Arr?
      && |r.value.elems| == (if k < |trades| then k else |trades|)
      && forall i :: 0 <= i < |r.value.elems| ==> r.value.elems[i] == trades[|trades| - 1 - i]
  {
    if !LimitValid(limit) then InvalidArguments({"limit"})
    else
      var data := ReadJson(file);
      if !Truthy(data) then Error(TradesMissing)
      else
        var trades := if data.Arr? then data.elems else [];
        Text(Arr(Reverse(LastN(trades, EffectiveLimit(limit)))))
  }
}

=== FILE: client.dfy ===
/**
 * The invest-intel HTTP client (`lib/invest-intel-client.js`): the
 * `fetchWithRetry` state machine and the endpoint wrappers built on it.
 *
 * Nothing is sent over a network here. What each attempt meets is an
 * oracle — one `Attempt` per attempt — and a call yields a `Trace`: the
 * request sent, the outcome, how many attempts were made and which backoff
 * delays were slept between them.
 */
module Client {
  import opened Wrappers
  import opened Strings
  import opened Js

  const MaxRetries: nat := 3
  const TimeoutMs: nat := 15000
  const BackoffBaseMs: nat := 1000
  const BackoffCapMs: nat := 5000
  /** How much of a failing response's body an HTTP error message quotes. */
  const SnippetMax: nat := 200
  const RefusedCode: string := "ECONNREFUSED"
  const AbortName: string := "AbortError"
  const ContentType: string := "Content-Type"
  const JsonMediaType: string := "application/json"

  /** The `options` argument of `fetchWithRetry`; `body` is the record before `JSON.stringify`. */
  datatype Options = Options(verb: Option<string>, body: Option<JsValue>, headers: map<string, string>)

  /** A `fetchWithRetry(path, options)` invocation. */
  datatype Call = Call(path: string, options: Options)

  /** What `fetch` is asked for on every attempt of a call. */
  datatype Request = Request(url: string, verb: string, body: Option<JsValue>, headers: map<string, string>)

  /** What one attempt runs into. */
  datatype Attempt =
    /** A 2xx response whose body `res.json()` decoded to `value`. */
    | Ok(value: JsValue)
    /**
     * A non-2xx response. `text` is the body (`None` when reading it
     * failed); `parsed` is what `JSON.parse` made of that text (`None` when
     * it threw).
     */
    | HttpFail(status: nat, text: Option<string>, parsed: Option<JsValue>)
    /**
     * `fetch` or `res.json()` threw an error with this `name` and `message`,
     * whose `cause.code` (if any) is `causeCode`.
     */
    | Thrown(name: string, message: string, causeCode: Option<string>)

  datatype CallResult = Value(value: JsValue) | Failed(message: string)

  datatype Trace = Trace(request: Request, result: CallResult, attempts: nat, delays: seq<nat>)

  /** The per-call request: `BASE_URL + path`, the caller's headers over a JSON content type. */
  function BuildRequest(baseUrl: string, call: Call): (r: Request)
    ensures StartsWith(r.url, baseUrl) && r.url[|baseUrl|..] == call.path
    ensures r.headers.Keys == call.options.headers.Keys + {ContentType}
    ensures forall k :: k in call.options.headers ==> r.headers[k] == call.options.headers[k]
    ensures ContentType !in call.options.headers ==> r.headers[ContentType] == JsonMediaType
    ensures call.options.verb.None? ==> r.verb == "GET"
    ensures call.options.verb.Some? ==> r.verb == call.options.verb.value
    ensures r.body == call.options.body
  {
    var url := baseUrl + call.path;
    assert url[..|baseUrl|] == baseUrl;
    Request(url, call.options.verb.GetOr("GET"), call.options.body,
            map[ContentType := JsonMediaType] + call.options.headers)
  }

  predicate Refused(a: Attempt) {
    a.Thrown? && a.causeCode == Some(RefusedCode)
  }

  predicate Aborted(a: Attempt) {
    a.Thrown? && a.name == AbortName
  }

  /** Every failure except a refused connection leads to another attempt, if one is left. */
  predicate Retryable(a: Attempt) {
    !a.Ok? && !Refused(a)
  }

  function TimeoutMessage(url: string): string {
    "타임아웃 (" + NatToString(TimeoutMs) + "ms): " + url
  }

  const RefusedPrefix: string := "invest-intel 서버에 연결할 수 없습니다 ("

  function RefusedMessage(baseUrl: string): string {
    RefusedPrefix + baseUrl + "). 서버 실행 여부를 확인하세요."
  }

  /**
   * The message of the error thrown for a non-2xx response: the parsed
   * body's `error` field when that is truthy, otherwise the status and the
   * start of the raw body. An unreadable body counts as the empty string,
   * which `JSON.parse` rejects.
   */
  function HttpFailureMessage(status: nat, text: Option<string>, parsed: Option<JsValue>): string {
    var body := text.GetOr("");
    var json := if text.Some? then parsed else None;
    var field := if json.Some? then ErrorField(json.value) else Undefined;
    if Truthy(field) then ToText(field)
    else "HTTP " + NatToString(status) + ": " + Take(body, SnippetMax)
  }

  /** The error an unsuccessful attempt leaves in `lastError`. */
  function AttemptError(url: string, a: Attempt): string
    requires !a.Ok?
  {
    match a
    case HttpFail(status, text, parsed) => HttpFailureMessage(status, text, parsed)
    case Thrown(name, message, _) => if name == AbortName then TimeoutMessage(url) else message
  }

  /** The `error` field `parsed?.error` reads, or `undefined`. */
  function ErrorField(parsed: JsValue): JsValue {
    if Nullish(parsed) then Undefined else Get(parsed, "error")
  }

  /** The outcome a call reports when its last attempt is `a`. */
  function Settle(baseUrl: string, url: string, a: Attempt): CallResult {
    if a.Ok? then Value(a.value)
    else if Refused(a) then Failed(RefusedMessage(baseUrl))
    else Failed(AttemptError(url, a))
  }

  function Pow2(k: nat): (r: nat)
    ensures r >= 1
  {
    if k == 0 then 1 else 2 * Pow2(k - 1)
  }

  /** `Math.min(1000 * 2 ** (attempt - 1), 5000)`: the pause after failed attempt `attempt`. */
  function Backoff(attempt: nat): nat
    requires 1 <= attempt
  {
    var d := BackoffBaseMs * Pow2(attempt - 1);
    if d < BackoffCapMs then d else BackoffCapMs
  }

  /**
   * Iterations `attempt`..`MaxRetries` of the `for` loop, entered with
   * `lastError` recorded by the iteration before.
   */
  function Loop(baseUrl: string, req: Request, outcomes: seq<Attempt>, attempt: nat, lastError: string): (t: Trace)
    requires 1 <= attempt <= MaxRetries + 1
    requires MaxRetries <= |outcomes|
    decreases MaxRetries + 1 - attempt
    ensures t.request == req
    ensures attempt <= MaxRetries ==> attempt <= t.attempts <= MaxRetries && |t.delays| == t.attempts - attempt
    ensures attempt > MaxRetries ==> t.attempts == MaxRetries && t.delays == [] && t.result == Failed(lastError)
    ensures forall j :: 0 <= j < |t.delays| ==> t.delays[j] == Backoff(attempt + j)
    ensures forall k :: attempt - 1 <= k < t.attempts - 1 ==> Retryable(outcomes[k])
    ensures attempt <= t.attempts < MaxRetries ==> !Retryable(outcomes[t.attempts - 1])
    ensures attempt <= t.attempts ==> t.result == Settle(baseUrl, req.url, outcomes[t.attempts - 1])
  {
    if attempt > MaxRetries then
      Trace(req, Failed(lastError), MaxRetries, [])
    else
      var a := outcomes[attempt - 1];
      if a.Ok? then
        Trace(req, Value(a.value), attempt, [])
      else if Refused(a) then
        Trace(req, Failed(RefusedMessage(baseUrl)), attempt, [])
      else
        var pause := if attempt < MaxRetries then [Backoff(attempt)] else [];
        var rest := Loop(baseUrl, req, outcomes, attempt + 1, AttemptError(req.url, a));
        rest.(delays := pause + rest.delays)
  }

  /**
   * `fetchWithRetry(path, options)` against `baseUrl`. The call stops at the
   * first attempt that succeeds or is refused, and otherwise after
   * `MaxRetries` attempts; it reports what that last attempt produced and
   * sleeps `Backoff(k)` after every earlier attempt `k`.
   */
  function FetchWithRetry(baseUrl: string, call: Call, outcomes: seq<Attempt>): (t: Trace)
    requires MaxRetries <= |outcomes|
    ensures t.request == BuildRequest(baseUrl, call)
    ensures 1 <= t.attempts <= MaxRetries
    ensures forall k :: 0 <= k < t.attempts - 1 ==> Retryable(outcomes[k])
    ensures t.attempts < MaxRetries ==> !Retryable(outcomes[t.attempts - 1])
    ensures t.result == Settle(baseUrl, t.request.url, outcomes[t.attempts - 1])
    ensures |t.delays| == t.attempts - 1
    ensures forall j :: 0 <= j < |t.delays| ==> t.delays[j] == Backoff(j + 1)
  {
    Loop(baseUrl, BuildRequest(baseUrl, call), outcomes, 1, "")
  }

  /**
   * The stopping rule fixes the call: an attempt count `n` that follows
   * `n - 1` retryable attempts and, below the limit, ends on one that is
   * not retryable, with the backoff pauses before it, is the trace of
   * `FetchWithRetry`.
   */
  lemma AgreesWithFetch(baseUrl: string, call: Call, outcomes: seq<Attempt>, n: nat, delays: seq<nat>)
    requires MaxRetries <= |outcomes|
    requires 1 <= n <= MaxRetries
    requires forall k :: 0 <= k < n - 1 ==> Retryable(outcomes[k])
    requires n < MaxRetries ==> !Retryable(outcomes[n - 1])
    requires |delays| == n - 1 && forall j :: 0 <= j < |delays| ==> delays[j] == Backoff(j + 1)
    ensures var t := FetchWithRetry(baseUrl, call, outcomes);
      && t.attempts == n && t.delays == delays
      && t.result == Settle(baseUrl, baseUrl + call.path, outcomes[n - 1])
  {
  }

  /**
   * The same loop written as the source writes it: a counted loop with a
   * mutable `lastError`, an early return on success and an early throw on
   * a refused connection. It produces the trace `FetchWithRetry` describes.
   */
  method FetchWithRetryLoop(baseUrl: string, call: Call, outcomes: seq<Attempt>)
    returns (result: CallResult, attempts: nat, delays: seq<nat>)
    requires MaxRetries <= |outcomes|
    ensures 1 <= attempts <= MaxRetries
    ensures result == Settle(baseUrl, baseUrl + call.path, outcomes[attempts - 1])
    ensures forall k :: 0 <= k < attempts - 1 ==> Retryable(outcomes[k])
    ensures attempts < MaxRetries ==> !Retryable(outcomes[attempts - 1])
    ensures var t := FetchWithRetry(baseUrl, call, outcomes);
      result == t.result && attempts == t.attempts && delays == t.delays
  {
    var url := baseUrl + call.path;
    var lastError := "";
    delays := [];
    var attempt := 1;
    while attempt <= MaxRetries
      invariant 1 <= attempt <= MaxRetries + 1
      invariant forall k :: 0 <= k < attempt - 1 ==> Retryable(outcomes[k])
      invariant attempt > 1 ==> lastError == AttemptError(url, outcomes[attempt - 2])
      invariant |delays| == (if attempt <= MaxRetries then attempt - 1 else MaxRetries - 1)
      invariant forall j :: 0 <= j < |delays| ==> delays[j] == Backoff(j + 1)
      decreases MaxRetries + 1 - attempt
    {
      var a := outcomes[attempt - 1];
      if a.Ok? {
        AgreesWithFetch(baseUrl, call, outcomes, attempt, delays);
        return Value(a.value), attempt, delays;
      }
      lastError := AttemptError(url, a);
      if Refused(a) {
        AgreesWithFetch(baseUrl, call, outcomes, attempt, delays);
        return Failed(RefusedMessage(baseUrl)), attempt, delays;
      }
      if attempt < MaxRetries {
        delays := delays + [Backoff(attempt)];
      }
      attempt := attempt + 1;
    }
    AgreesWithFetch(baseUrl, call, outcomes, MaxRetries, delays);
    result, attempts := Failed(lastError), MaxRetries;
  }

  // ----- Properties of the retry loop -----

  lemma {:induction false} Pow2AtLeast8(k: nat)
    requires 3 <= k
    ensures Pow2(k) >= 8
  {
    if k > 3 {
      Pow2AtLeast8(k - 1);
    }
  }

  /** The pauses double from one second and stop growing at the five-second cap. */
  lemma BackoffSchedule(k: nat)
    requires 1 <= k
    ensures Backoff(1) == 1000 && Backoff(2) == 2000 && Backoff(3) == 4000
    ensures 4 <= k ==> Backoff(k) == BackoffCapMs
    ensures Backoff(k) <= Backoff(k + 1) <= BackoffCapMs
  {
    assert Pow2(2) == 4;
    if 4 <= k {
      Pow2AtLeast8(k - 1);
      Pow2AtLeast8(k);
    } else if k == 3 {
      Pow2AtLeast8(k);
    }
  }

  function Sum(s: seq<nat>): nat {
    if s == [] then 0 else s[0] + Sum(s[1..])
  }

  /** A call sleeps at most 1000 + 2000 ms in all, and exactly that when it used every attempt. */
  lemma TotalSleepBound(baseUrl: string, call: Call, outcomes: seq<Attempt>)
    requires MaxRetries <= |outcomes|
    ensures var t := FetchWithRetry(baseUrl, call, outcomes);
      Sum(t.delays) <= 3000 && (t.attempts == MaxRetries <==> Sum(t.delays) == 3000)
  {
    var t := FetchWithRetry(baseUrl, call, outcomes);
    BackoffSchedule(1);
    if t.attempts == 3 {
      assert t.delays == [1000, 2000];
      assert Sum(t.delays) == 1000 + Sum([2000]);
    } else if t.attempts == 2 {
      assert t.delays == [1000];
      assert Sum(t.delays) == 1000 + Sum([]);
    }
  }

  /** The first attempt that succeeds ends the call with its decoded body. */
  lemma FirstSuccessReturns(baseUrl: string, call: Call, outcomes: seq<Attempt>, i: nat)
    requires MaxRetries <= |outcomes| && i < MaxRetries
    requires forall k :: 0 <= k < i ==> Retryable(outcomes[k])
    requires outcomes[i].Ok?
    ensures var t := FetchWithRetry(baseUrl, call, outcomes);
      t.result == Value(outcomes[i].value) && t.attempts == i + 1 && |t.delays| == i
  {
  }

  /** A refused connection ends the call at once, naming the base URL, even on the first attempt. */
  lemma RefusalEndsCall(baseUrl: string, call: Call, outcomes: seq<Attempt>, i: nat)
    requires MaxRetries <= |outcomes| && i < MaxRetries
    requires forall k :: 0 <= k < i ==> Retryable(outcomes[k])
    requires Refused(outcomes[i])
    ensures var t := FetchWithRetry(baseUrl, call, outcomes);
      t.result == Failed(RefusedMessage(baseUrl)) && t.attempts == i + 1 && |t.delays| == i
  {
  }

  /** The refusal message depends on the base URL only, never on the path called. */
  lemma RefusalIgnoresPath(baseUrl: string, call1: Call, call2: Call, outcomes: seq<Attempt>)
    requires MaxRetries <= |outcomes|
    requires Refused(outcomes[0])
    ensures FetchWithRetry(baseUrl, call1, outcomes).result == FetchWithRetry(baseUrl, call2, outcomes).result
    ensures RefusedMessage(baseUrl)[|RefusedPrefix|..|RefusedPrefix| + |baseUrl|] == baseUrl
  {
    RefusalEndsCall(baseUrl, call1, outcomes, 0);
    RefusalEndsCall(baseUrl, call2, outcomes, 0);
  }


  /** When no attempt succeeds or is refused, the error of the third attempt is the one raised. */
  lemma ExhaustedLastErrorWins(baseUrl: string, call: Call, outcomes: seq<Attempt>)
    requires MaxRetries <= |outcomes|
    requires forall k :: 0 <= k < MaxRetries ==> Retryable(outcomes[k])
    ensures var t := FetchWithRetry(baseUrl, call, outcomes);
      t.attempts == MaxRetries
      && Retryable(outcomes[MaxRetries - 1])
      && t.result == Failed(AttemptError(baseUrl + call.path, outcomes[MaxRetries - 1]))
      && t.delays == [1000, 2000]
  {
    BackoffSchedule(1);
  }

  /** A timed-out attempt is retried; when it was the last one, the timeout message is raised. */
  lemma TimeoutIsRetried(baseUrl: string, call: Call, outcomes: seq<Attempt>, i: nat)
    requires MaxRetries <= |outcomes| && i < MaxRetries
    requires forall k :: 0 <= k < i ==> Retryable(outcomes[k])
    requires Aborted(outcomes[i]) && !Refused(outcomes[i])
    ensures var t := FetchWithRetry(baseUrl, call, outcomes);
      (i + 1 < MaxRetries ==> t.attempts > i + 1)
      && (i + 1 == MaxRetries ==> t.result == Failed(TimeoutMessage(baseUrl + call.path)))
  {
  }

  /** The timeout message states the 15000 ms limit and the full URL. */
  lemma TimeoutMessageText(url: string)
    ensures TimeoutMessage(url) == "타임아웃 (15000ms): " + url
  {
  }

  /**
   * Two HTTP 500 answers carrying `{"error": "db down"}` and then a success:
   * the call returns the third answer after pauses of 1000 and 2000 ms.
   */
  lemma RecoversAfterTwoServerErrors(baseUrl: string, call: Call, v: JsValue)
    ensures var fail := HttpFail(500, Some("{\"error\":\"db down\"}"), Some(Obj(map["error" := Str("db down")])));
      var t := FetchWithRetry(baseUrl, call, [fail, fail, Ok(v)]);
      t.result == Value(v) && t.attempts == 3 && t.delays == [1000, 2000]
  {
    BackoffSchedule(1);
  }

  /** Attempts after the last one made have no influence on the call. */
  lemma OnlyConsumedAttemptsMatter(baseUrl: string, call: Call, outcomes: seq<Attempt>, outcomes': seq<Attempt>)
    requires MaxRetries <= |outcomes| && MaxRetries <= |outcomes'|
    requires var n := FetchWithRetry(baseUrl, call, outcomes).attempts; outcomes[..n] == outcomes'[..n]
    ensures FetchWithRetry(baseUrl, call, outcomes') == FetchWithRetry(baseUrl, call, outcomes)
  {
    var t := FetchWithRetry(baseUrl, call, outcomes);
    var t' := FetchWithRetry(baseUrl, call, outcomes');
    var n := t.attempts;
    assert forall k :: 0 <= k < n ==> outcomes'[k] == outcomes[k] by {
      forall k | 0 <= k < n ensures outcomes'[k] == outcomes[k] {
        assert outcomes[..n][k] == outcomes'[..n][k];
      }
    }
    assert t'.attempts == n;
    assert t'.delays == t.delays;
  }

  // ----- The message of a failed HTTP response -----

  /**
   * `parsed?.error` reads `undefined` exactly where the plain read
   * `parsed.error` would throw, and the same field everywhere else.
   */
  lemma OptionalErrorRead(parsed: JsValue)
    ensures Prop(parsed, "error").Failure? <==> ErrorField(parsed) == Undefined && Nullish(parsed)
    ensures Prop(parsed, "error").Success? ==> ErrorField(parsed) == Prop(parsed, "error").value
  {
  }

  /** A parsed body with a non-empty string `error` field supplies the message verbatim. */
  lemma HttpMessageFromErrorField(status: nat, body: string, fields: map<string, JsValue>, e: string)
    requires "error" in fields && fields["error"] == Str(e) && e != ""
    ensures HttpFailureMessage(status, Some(body), Some(Obj(fields))) == e
  {
  }

  /** Without a truthy `error` field the message is built from the status and the body. */
  lemma HttpMessageFallback(status: nat, text: Option<string>, parsed: Option<JsValue>)
    requires text.None? || parsed.None? || !Truthy(ErrorField(parsed.value))
    ensures HttpFailureMessage(status, text, parsed)
      == "HTTP " + NatToString(status) + ": " + Take(text.GetOr(""), SnippetMax)
  {
  }

  /**
   * Without a truthy `error` field the message is "HTTP ", the status (read
   * back exactly from the text), ": " and the first at most 200 characters
   * of the body, which is empty when it could not be read.
   */
  lemma HttpMessageWithoutErrorField(status: nat, text: Option<string>, parsed: Option<JsValue>)
    requires text.None? || parsed.None? || !Truthy(ErrorField(parsed.value))
    ensures var m := HttpFailureMessage(status, text, parsed);
      var body := text.GetOr("");
      var d := NatToString(status);
      && StartsWith(m, "HTTP ")
      && AllDigits(m[5..5 + |d|]) && DigitsValue(m[5..5 + |d|]) == status
      && m[5 + |d|..7 + |d|] == ": "
      && StartsWith(body, m[7 + |d|..])
      && |m| - (7 + |d|) == (if |body| < SnippetMax then |body| else SnippetMax)
  {
    HttpMessageFallback(status, text, parsed);
    var d := NatToString(status);
    var snippet := Take(text.GetOr(""), SnippetMax);
    var head, tail := "HTTP " + d, ": " + snippet;
    var m := head + tail;
    assert m == "HTTP " + d + ": " + snippet;
    assert m[..|head|] == head && m[|head|..] == tail;
    assert head[..5] == "HTTP " && head[5..] == d;
    assert tail[..2] == ": " && tail[2..] == snippet;
    assert m[..5] == head[..5];
    assert m[5..5 + |d|] == head[5..];
    assert m[5 + |d|..7 + |d|] == tail[..2];
    assert m[7 + |d|..] == tail[2..];
    NatToStringRoundTrip(status);
  }

  // ----- Endpoint wrappers -----

  const FundamentalPrefix: string := "/api/quant/fundamental/"
  const BuyPath: string := "/api/quant/advisory/buy"
  const SellPath: string := "/api/quant/advisory/sell"
  const SummaryPath: string := "/api/trader/summary"
  const HoldingsPath: string := "/api/trader/holdings"
  const TradesPrefix: string := "/api/trader/trades?limit="
  const DefaultTradesLimit: string := "10"

  const NoOptions: Options := Options(None, None, map[])

  function GetFundamental(stockCode: string): Call {
    Call(FundamentalPrefix + stockCode, NoOptions)
  }

  function AdviseBuy(stockCode: string, currentPrice: Number, technicalScore: Option<Number>): Call {
    Call(BuyPath, Options(Some("POST"), Some(Obj(map[
      "stockCode" := Str(stockCode),
      "currentPrice" := Num(currentPrice),
      "technicalScore" := OptNum(technicalScore)])), map[]))
  }

  function AdviseSell(stockCode: string, currentPrice: Option<Number>, profitRate: Option<Number>): Call {
    Call(SellPath, Options(Some("POST"), Some(Obj(map[
      "stockCode" := Str(stockCode),
      "currentPrice" := OptNum(currentPrice),
      "profitRate" := OptNum(profitRate)])), map[]))
  }

  function GetSummary(): Call {
    Call(SummaryPath, NoOptions)
  }

  function GetHoldings(): Call {
    Call(HoldingsPath, NoOptions)
  }

  /** `getTrades(limit = 10)`: the limit is interpolated with `String`. */
  function GetTrades(limit: Option<Number>): Call {
    Call(TradesPrefix + (if limit.Some? then limit.value.text else DefaultTradesLimit), NoOptions)
  }

  /** The headers every wrapper sends: its callers add none, so only the JSON content type. */
  lemma WrapperHeaders(baseUrl: string, call: Call)
    requires call.options.headers == map[]
    ensures BuildRequest(baseUrl, call).headers == map[ContentType := JsonMediaType]
  {
    var h := BuildRequest(baseUrl, call).headers;
    assert h.Keys == {ContentType};
  }

  /** The portfolio reads are plain GETs of fixed paths. */
  lemma TraderReadRequests(baseUrl: string)
    ensures var r := BuildRequest(baseUrl, GetSummary());
      r.url == baseUrl + SummaryPath && r.verb == "GET" && r.body.None? && r.headers == map[ContentType := JsonMediaType]
    ensures var r := BuildRequest(baseUrl, GetHoldings());
      r.url == baseUrl + HoldingsPath && r.verb == "GET" && r.body.None? && r.headers == map[ContentType := JsonMediaType]
  {
    WrapperHeaders(baseUrl, GetSummary());
    WrapperHeaders(baseUrl, GetHoldings());
  }

  /** The fundamental lookup is a GET whose URL ends in the stock code, recoverable from it. */
  lemma FundamentalRequest(baseUrl: string, stockCode: string)
    ensures var r := BuildRequest(baseUrl, GetFundamental(stockCode));
      && r.verb == "GET" && r.body.None?
      && r.headers == map[ContentType := JsonMediaType]
      && StartsWith(r.url, baseUrl + FundamentalPrefix)
      && r.url[|baseUrl + FundamentalPrefix|..] == stockCode
  {
    WrapperHeaders(baseUrl, GetFundamental(stockCode));
    var r := BuildRequest(baseUrl, GetFundamental(stockCode));
    assert r.url == (baseUrl + FundamentalPrefix) + stockCode;
  }

  /** Both advisories are JSON POSTs to fixed paths carrying exactly their three arguments. */
  lemma AdvisoryRequests(baseUrl: string, stockCode: string, price: Number, technicalScore: Option<Number>,
                         sellPrice: Option<Number>, profitRate: Option<Number>)
    ensures var r := BuildRequest(baseUrl, AdviseBuy(stockCode, price, technicalScore));
      && r.url == baseUrl + BuyPath && r.verb == "POST"
      && r.headers == map[ContentType := JsonMediaType]
      && r.body.Some? && r.body.value.Obj?
      && r.body.value.fields.Keys == {"stockCode", "currentPrice", "technicalScore"}
      && r.body.value.fields["stockCode"] == Str(stockCode)
      && r.body.value.fields["currentPrice"] == Num(price)
      && (technicalScore.None? <==> r.body.value.fields["technicalScore"] == Undefined)
    ensures var r := BuildRequest(baseUrl, AdviseSell(stockCode, sellPrice, profitRate));
      && r.url == baseUrl + SellPath && r.verb == "POST"
      && r.headers == map[ContentType := JsonMediaType]
      && r.body.Some? && r.body.value.Obj?
      && r.body.value.fields.Keys == {"stockCode", "currentPrice", "profitRate"}
      && r.body.value.fields["stockCode"] == Str(stockCode)
      && (sellPrice.None? <==> r.body.value.fields["currentPrice"] == Undefined)
      && (profitRate.None? <==> r.body.value.fields["profitRate"] == Undefined)
  {
    WrapperHeaders(baseUrl, AdviseBuy(stockCode, price, technicalScore));
    WrapperHeaders(baseUrl, AdviseSell(stockCode, sellPrice, profitRate));
  }

  /** Without a limit the trades listing asks for 10; with one it asks for that number. */
  lemma TradesRequest(baseUrl: string, limit: Option<Number>)
    ensures var r := BuildRequest(baseUrl, GetTrades(limit));
      var q := r.url[|baseUrl + TradesPrefix|..];
      && r.verb == "GET"
      && StartsWith(r.url, baseUrl + TradesPrefix)
      && (limit.None? ==> q == "10")
      && (limit.Some? ==> q == limit.value.text)
  {
    var r := BuildRequest(baseUrl, GetTrades(limit));
    var tail := if limit.Some? then limit.value.text else DefaultTradesLimit;
    assert r.url == (baseUrl + TradesPrefix) + tail;
  }
}

=== FILE: invest_quant.dfy ===
/**
 * The quant tools (`tools/invest-quant.js`): the input schemas as
 * predicates, and the three handlers as functions from the client's answer
 * to the handler's result.
 */
module InvestQuant {
  import opened Wrappers
  import opened Strings
  import opened Js
  import opened Tool
  import opened Client

  const StockCodeLength: nat := 6
  const NoFundamentalData: string := "펀더멘털 데이터 없음"

  /** `/^\d{6}$/`: exactly six ASCII digits. */
  predicate IsStockCode(s: string) {
    |s| == StockCodeLength && AllDigits(s)
  }

  // ----- The stock-code space -----

  /** The code of number `n`: its decimal digits, zero-padded on the left to six. */
  function PaddedCode(n: nat): (s: string)
    requires n < Pow10(StockCodeLength)
    ensures IsStockCode(s)
    ensures DigitsValue(s) == n
  {
    var d := NatToString(n);
    NatToStringLength(n, StockCodeLength);
    NatToStringRoundTrip(n);
    DigitsValueAppend(Zeros(StockCodeLength - |d|), d);
    Zeros(StockCodeLength - |d|) + d
  }

  lemma {:induction false} DigitsValueBound(s: string)
    requires AllDigits(s)
    ensures DigitsValue(s) < Pow10(|s|)
  {
    if s != [] {
      DigitsValueBound(s[..|s| - 1]);
    }
  }

  /** Two digit strings of one length that denote the same number are equal. */
  lemma {:induction false} DigitsValueInjective(a: string, b: string)
    requires AllDigits(a) && AllDigits(b) && |a| == |b|
    requires DigitsValue(a) == DigitsValue(b)
    ensures a == b
  {
    if a != [] {
      var a', b' := a[..|a| - 1], b[..|b| - 1];
      assert DigitValue(a[|a| - 1]) == DigitValue(b[|b| - 1]);
      DigitsValueInjective(a', b');
      assert a == a' + [a[|a| - 1]] && b == b' + [b[|b| - 1]];
    }
  }

  /**
   * The accepted codes are exactly the zero-padded renderings of
   * 0..999999: every accepted code is one, read back unchanged.
   */
  lemma StockCodeRoundTrip(s: string)
    requires IsStockCode(s)
    ensures DigitsValue(s) < Pow10(StockCodeLength)
    ensures PaddedCode(DigitsValue(s)) == s
  {
    DigitsValueBound(s);
    DigitsValueInjective(PaddedCode(DigitsValue(s)), s);
  }

  // ----- Input schemas -----

  /** The arguments `quant_buy_advisory`'s schema refuses. */
  function BuyIssues(stockCode: string, currentPrice: Number, technicalScore: Option<Number>): (bad: set<string>)
    ensures bad == {} <==>
      IsStockCode(stockCode) && currentPrice.value > 0.0
      && (technicalScore.Some? ==> 0.0 <= technicalScore.value.value <= 100.0)
  {
    (if IsStockCode(stockCode) then {} else {"stockCode"})
    + (if currentPrice.value > 0.0 then {} else {"currentPrice"})
    + (if technicalScore.None? || 0.0 <= technicalScore.value.value <= 100.0 then {} else {"technicalScore"})
  }

  /** The arguments `quant_sell_advisory`'s schema refuses. */
  function SellIssues(stockCode: string, currentPrice: Option<Number>): (bad: set<string>)
    ensures bad == {} <==> IsStockCode(stockCode) && (currentPrice.Some? ==> currentPrice.value.value > 0.0)
  {
    (if IsStockCode(stockCode) then {} else {"stockCode"})
    + (if currentPrice.None? || currentPrice.value.value > 0.0 then {} else {"currentPrice"})
  }

  // ----- Handlers -----

  const BreakdownKeys: set<string> := {"valuation", "profitability", "stability", "growth"}

  /** The `quant_fundamental` handler given what `getFundamental` returned or threw. */
  function FundamentalReply(reply: CallResult): (r: HandlerResult)
    ensures reply.Failed? ==> r == Error(reply.message)
    ensures reply.Value? && Nullish(reply.value) ==> r == Error(ReadError(reply.value, "available"))
    ensures r.Text? <==> reply.Value? && !Nullish(reply.value) && Truthy(Get(reply.value, "available"))
    ensures reply.Value? && !Nullish(reply.value) && !Truthy(Get(reply.value, "available"))
      ==> r == Error(NoFundamentalData)
    ensures r.Text? ==>
      var d := reply.value;
      var breakdown := Get(d, "breakdown");
      && r.value.Obj?
      && r.value.fields.Keys == {"score"} + BreakdownKeys
      && r.value.fields["score"] == Get(d, "score")
      && (forall k :: k in BreakdownKeys ==>
            r.value.fields[k] == (if breakdown.Obj? && k in breakdown.fields then breakdown.fields[k] else Undefined))
  {
    match reply
    case Failed(message) => Error(message)
    case Value(d) =>
      match Prop(d, "available")
      case Failure(e) => Error(e)
      case Success(available) =>
        if !Truthy(available) then Error(NoFundamentalData)
        else
          var b := Or(Get(d, "breakdown"), Obj(map[]));
          Text(Obj(map[
            "score" := Get(d, "score"),
            "valuation" := Get(b, "valuation"),
            "profitability" := Get(b, "profitability"),
            "stability" := Get(b, "stability"),
            "growth" := Get(b, "growth")]))
  }

  /** A value whose fields are exactly `keys`, each read from `d`. */
  predicate ProjectionOf(out: JsValue, d: JsValue, keys: set<string>)
    requires !Nullish(d)
  {
    out.Obj? && out.fields.Keys == keys && forall k :: k in keys ==> out.fields[k] == Get(d, k)
  }

  const BuyKeys: set<string> := {"approved", "confidence", "positionSize", "reasons"}
  const SellKeys: set<string> := {"approved", "reason", "reasons"}

  /** The `quant_buy_advisory` handler given what `adviseBuy` returned or threw. */
  function BuyReply(reply: CallResult): (r: HandlerResult)
    ensures reply.Failed? ==> r == Error(reply.message)
    ensures reply.Value? && Nullish(reply.value) ==> r == Error(ReadError(reply.value, "approved"))
    ensures reply.Value? && !Nullish(reply.value) ==> r.Text? && ProjectionOf(r.value, reply.value, BuyKeys)
  {
    match reply
    case Failed(message) => Error(message)
    case Value(d) =>
      if Nullish(d) then Error(ReadError(d, "approved"))
      else Text(Obj(map[
        "approved" := Get(d, "approved"),
        "confidence" := Get(d, "confidence"),
        "positionSize" := Get(d, "positionSize"),
        "reasons" := Get(d, "reasons")]))
  }

  /** The `quant_sell_advisory` handler given what `adviseSell` returned or threw. */
  function SellReply(reply: CallResult): (r: HandlerResult)
    ensures reply.Failed? ==> r == Error(reply.message)
    ensures reply.Value? && Nullish(reply.value) ==> r == Error(ReadError(reply.value, "approved"))
    ensures reply.Value? && !Nullish(reply.value) ==> r.Text? && ProjectionOf(r.value, reply.value, SellKeys)
  {
    match reply
    case Failed(message) => Error(message)
    case Value(d) =>
      if Nullish(d) then Error(ReadError(d, "approved"))
      else Text(Obj(map[
        "approved" := Get(d, "approved"),
        "reason" := Get(d, "reason"),
        "reasons" := Get(d, "reasons")]))
  }

  // ----- The tools end to end -----

  /** `quant_fundamental`: schema check, the client call, then the projection. */
  function QuantFundamental(baseUrl: string, stockCode: string, outcomes: seq<Attempt>): (r: HandlerResult)
    requires MaxRetries <= |outcomes|
    ensures r.InvalidArguments? <==> !IsStockCode(stockCode)
    ensures IsStockCode(stockCode) && Refused(outcomes[0]) ==> r == Error(RefusedMessage(baseUrl))
    ensures (IsStockCode(stockCode) && outcomes[0].Ok? && outcomes[0].value.Obj?
             && "available" !in outcomes[0].value.fields) ==> r == Error(NoFundamentalData)
  {
    if !IsStockCode(stockCode) then InvalidArguments({"stockCode"})
    else FundamentalReply(FetchWithRetry(baseUrl, GetFundamental(stockCode), outcomes).result)
  }

  /** `quant_buy_advisory`: schema check, the client call, then the projection. */
  function QuantBuyAdvisory(baseUrl: string, stockCode: string, currentPrice: Number,
                            technicalScore: Option<Number>, outcomes: seq<Attempt>): (r: HandlerResult)
    requires MaxRetries <= |outcomes|
    ensures r.InvalidArguments? <==> BuyIssues(stockCode, currentPrice, technicalScore) != {}
    ensures BuyIssues(stockCode, currentPrice, technicalScore) == {} && Refused(outcomes[0])
      ==> r == Error(RefusedMessage(baseUrl))
    ensures (BuyIssues(stockCode, currentPrice, technicalScore) == {} && outcomes[0].Ok? && !Nullish(outcomes[0].value))
      ==> r.Text? && ProjectionOf(r.value, outcomes[0].value, BuyKeys)
  {
    var bad := BuyIssues(stockCode, currentPrice, technicalScore);
    if bad != {} then InvalidArguments(bad)
    else BuyReply(FetchWithRetry(baseUrl, AdviseBuy(stockCode, currentPrice, technicalScore), outcomes).result)
  }

  /** `quant_sell_advisory`: schema check, the client call, then the projection. */
  function QuantSellAdvisory(baseUrl: string, stockCode: string, currentPrice: Option<Number>,
                             profitRate: Option<Number>, outcomes: seq<Attempt>): (r: HandlerResult)
    requires MaxRetries <= |outcomes|
    ensures r.InvalidArguments? <==> SellIssues(stockCode, currentPrice) != {}
    ensures SellIssues(stockCode, currentPrice) == {} && Refused(outcomes[0])
      ==> r == Error(RefusedMessage(baseUrl))
    ensures (SellIssues(stockCode, currentPrice) == {} && outcomes[0].Ok? && !Nullish(outcomes[0].value))
      ==> r.Text? && ProjectionOf(r.value, outcomes[0].value, SellKeys)
  {
    var bad := SellIssues(stockCode, currentPrice);
    if bad != {} then InvalidArguments(bad)
    else SellReply(FetchWithRetry(baseUrl, AdviseSell(stockCode, currentPrice, profitRate), outcomes).result)
  }
}

=== FILE: js.dfy ===
/**
 * The slice of JavaScript value semantics the gateway relies on: JSON-shaped
 * values (plus `undefined`), truthiness, `a || b`, property reads that throw
 * on `null`/`undefined`, and `String(v)` as used by `new Error(v)`.
 */
module Js {
  import opened Wrappers
  import opened Strings

  /**
   * A JavaScript number. `text` is what `String(value)` prints; it travels
   * with the value because the model does not format binary floating point.
   */
  datatype Number = Number(value: real, text: string)

  datatype JsValue =
    | Undefined
    | Null
    | Bool(b: bool)
    | Num(n: Number)
    | Str(s: string)
    | Arr(elems: seq<JsValue>)
    | Obj(fields: map<string, JsValue>)

  /** The number JavaScript produces for a non-negative integer count. */
  function NatNumber(k: nat): (n: Number)
    ensures n.value == k as real
    ensures AllDigits(n.text) && DigitsValue(n.text) == k
  {
    NatToStringRoundTrip(k);
    Number(k as real, NatToString(k))
  }

  /** An optional argument as the value a destructured parameter holds. */
  function OptNum(n: Option<Number>): JsValue {
    match n
    case Some(x) => Num(x)
    case None => Undefined
  }

  predicate Nullish(v: JsValue) {
    v.Undefined? || v.Null?
  }

  /** JavaScript's ToBoolean; JSON values have no NaN, so a number is falsy only at zero. */
  predicate Truthy(v: JsValue) {
    match v
    case Undefined => false
    case Null => false
    case Bool(b) => b
    case Num(n) => n.value != 0.0
    case Str(s) => s != ""
    case Arr(_) => true
    case Obj(_) => true
  }

  /** `a || b`. */
  function Or(a: JsValue, b: JsValue): JsValue {
    if Truthy(a) then a else b
  }

  /**
   * `v[key]` on a value that is neither `null` nor `undefined`. Arrays and
   * strings answer only `length`; no key the gateway reads is an array
   * index or an inherited property.
   */
  function Get(v: JsValue, key: string): JsValue
    requires !Nullish(v)
  {
    match v
    case Obj(m) => if key in m then m[key] else Undefined
    case Arr(a) => if key == "length" then Num(NatNumber(|a|)) else Undefined
    case Str(s) => if key == "length" then Num(NatNumber(|s|)) else Undefined
    case _ => Undefined
  }

  /** The message of the TypeError V8 throws for `v[key]` on `null`/`undefined`. */
  function ReadError(v: JsValue, key: string): string
    requires Nullish(v)
  {
    "Cannot read properties of " + (if v.Null? then "null" else "undefined") + " (reading '" + key + "')"
  }

  /** `v[key]`, throwing exactly when the base is `null` or `undefined`. */
  function Prop(v: JsValue, key: string): (r: Result<JsValue, string>)
    ensures r.Failure? <==> Nullish(v)
    ensures r.Success? ==> r.value == Get(v, key)
    ensures r.Failure? ==> r.error == ReadError(v, key)
  {
    if Nullish(v) then Failure(ReadError(v, key)) else Success(Get(v, key))
  }

  /** `String(v)`, which is what `new Error(v).message` holds for a truthy `v`. */
  function ToText(v: JsValue): string
    decreases v
  {
    match v
    case Undefined => "undefined"
    case Null => "null"
    case Bool(b) => if b then "true" else "false"
    case Num(n) => n.text
    case Str(s) => s
    case Arr(a) => JoinComma(seq(|a|, i requires 0 <= i < |a| => if Nullish(a[i]) then "" else ToText(a[i])))
    case Obj(_) => "[object Object]"
  }

  /** `Array.prototype.join` with the default separator, over already-converted elements. */
  function JoinComma(parts: seq<string>): string {
    if parts == [] then ""
    else if |parts| == 1 then parts[0]
    else parts[0] + "," + JoinComma(parts[1..])
  }

  predicate Integral(n: Number) {
    n.value.Floor as real == n.value
  }

  /**
   * `text` is what `String` prints for a non-negative integer in the range
   * JavaScript writes without an exponent: its plain decimal digits.
   */
  predicate Canonical(n: Number) {
    Integral(n) && 0.0 <= n.value < 1000000000000000000000.0 ==> n.text == NatToString(n.value.Floor as nat)
  }
}

=== FILE: report_builder.dfy ===
/**
 * The report tools (`tools/report-builder.js`): path checks, the argument
 * lists handed to the Python builder and validator, and the template
 * listing. The processes and the directory read are inputs.
 */
module ReportBuilder {
  import opened Wrappers
  import opened Strings
  import opened Js
  import opened Tool

  const ExecTimeoutMs: nat := 60000

  /** `REPORT_BUILDER_PATH`, `REPORT_VALIDATOR_PATH` and `REPORT_BUILDER_PYTHON`. */
  datatype Config = Config(builderPath: string, validatorPath: string, python: string)

  const InputNotAbsolute: string := "inputFile은 절대경로 필수"
  const ConfigNotAbsolute: string := "configFile은 절대경로 필수"
  const ReportNotAbsolute: string := "reportFile은 절대경로 필수"
  const InputNotWorkbook: string := "inputFile은 .xlsx/.xls만 지원"
  const ConfigNotYaml: string := "configFile은 .yaml/.yml만 지원"
  const ReportNotXlsx: string := "reportFile은 .xlsx만 지원"

  predicate IsWorkbook(path: string) {
    EndsWith(path, ".xlsx") || EndsWith(path, ".xls")
  }

  predicate IsYaml(path: string) {
    EndsWith(path, ".yaml") || EndsWith(path, ".yml")
  }

  /** What `report_generate` does with its arguments before any process runs. */
  function GeneratePlan(cfg: Config, inputFile: string, configFile: string, outputFile: Option<string>): (p: Plan)
    ensures p.Launch? <==>
      IsAbsolute(inputFile) && IsAbsolute(configFile) && IsWorkbook(inputFile) && IsYaml(configFile)
    ensures !IsAbsolute(inputFile) ==> p == Reject(InputNotAbsolute)
    ensures IsAbsolute(inputFile) && !IsAbsolute(configFile) ==> p == Reject(ConfigNotAbsolute)
    ensures IsAbsolute(inputFile) && IsAbsolute(configFile) && !IsWorkbook(inputFile)
      ==> p == Reject(InputNotWorkbook)
    ensures IsAbsolute(inputFile) && IsAbsolute(configFile) && IsWorkbook(inputFile) && !IsYaml(configFile)
      ==> p == Reject(ConfigNotYaml)
    ensures p.Launch? ==>
      var inv := p.invocation;
      && inv.program == cfg.python && inv.cwd == cfg.builderPath
      && inv.timeoutMs == ExecTimeoutMs && inv.pythonPath.None?
      && |inv.args| == (if Given(outputFile) then 8 else 6)
      && inv.args[..6] == ["main.py", "--input", inputFile, "--config", configFile, "--json"]
  {
    if !IsAbsolute(inputFile) then Reject(InputNotAbsolute)
    else if !IsAbsolute(configFile) then Reject(ConfigNotAbsolute)
    else if !IsWorkbook(inputFile) then Reject(InputNotWorkbook)
    else if !IsYaml(configFile) then Reject(ConfigNotYaml)
    else
      var args := ["main.py", "--input", inputFile, "--config", configFile, "--json"];
      var args := if Given(outputFile) then args + ["--output", outputFile.value] else args;
      Launch(Invocation(cfg.python, args, cfg.builderPath, ExecTimeoutMs, None))
  }

  /** What `report_validate` does with its arguments before any process runs. */
  function ValidatePlan(cfg: Config, reportFile: string, configFile: string, sourceFile: Option<string>): (p: Plan)
    ensures p.Launch? <==>
      IsAbsolute(reportFile) && IsAbsolute(configFile) && EndsWith(reportFile, ".xlsx") && IsYaml(configFile)
    ensures !IsAbsolute(reportFile) ==> p == Reject(ReportNotAbsolute)
    ensures IsAbsolute(reportFile) && !IsAbsolute(configFile) ==> p == Reject(ConfigNotAbsolute)
    ensures IsAbsolute(reportFile) && IsAbsolute(configFile) && !EndsWith(reportFile, ".xlsx")
      ==> p == Reject(ReportNotXlsx)
    ensures IsAbsolute(reportFile) && IsAbsolute(configFile) && EndsWith(reportFile, ".xlsx") && !IsYaml(configFile)
      ==> p == Reject(ConfigNotYaml)
    ensures p.Launch? ==>
      var inv := p.invocation;
      && inv.program == cfg.python && inv.cwd == cfg.validatorPath
      && inv.timeoutMs == ExecTimeoutMs && inv.pythonPath.None?
      && |inv.args| == (if Given(sourceFile) then 8 else 6)
      && inv.args[..6] == ["main.py", "--report", reportFile, "--config", configFile, "--json"]
  {
    if !IsAbsolute(reportFile) then Reject(ReportNotAbsolute)
    else if !IsAbsolute(configFile) then Reject(ConfigNotAbsolute)
    else if !EndsWith(reportFile, ".xlsx") then Reject(ReportNotXlsx)
    else if !IsYaml(configFile) then Reject(ConfigNotYaml)
    else
      var args := ["main.py", "--report", reportFile, "--config", configFile, "--json"];
      var args := if Given(sourceFile) then args + ["--source", sourceFile.value] else args;
      Launch(Invocation(cfg.python, args, cfg.validatorPath, ExecTimeoutMs, None))
  }

  /** An `.xls` workbook is a valid generator input but never a report to validate. */
  lemma XlsOnlyForGeneration(cfg: Config, path: string, configFile: string, other: Option<string>)
    requires IsAbsolute(path) && IsAbsolute(configFile) && IsYaml(configFile) && EndsWith(path, ".xls")
    ensures GeneratePlan(cfg, path, configFile, other).Launch?
    ensures ValidatePlan(cfg, path, configFile, other) == Reject(ReportNotXlsx)
  {
    assert path[|path| - 1] == ".xls"[3];
  }

  /** A path that must start with `/` can never be mistaken for a flag. */
  lemma AbsoluteIsNotFlag(path: string, flag: string)
    requires IsAbsolute(path) && StartsWith(flag, "-")
    ensures path != flag
  {
  }

  /** `FlagValue` reads back exactly the caller's three paths from the builder's argument list. */
  lemma GenerateArgsDecode(cfg: Config, inputFile: string, configFile: string, outputFile: Option<string>)
    requires GeneratePlan(cfg, inputFile, configFile, outputFile).Launch?
    ensures var args := GeneratePlan(cfg, inputFile, configFile, outputFile).invocation.args;
      && FlagValue(args, "--input") == Some(inputFile)
      && FlagValue(args, "--config") == Some(configFile)
      && FlagValue(args, "--output") == (if Given(outputFile) then Some(outputFile.value) else None)
      && "--json" in args
  {
    var args := GeneratePlan(cfg, inputFile, configFile, outputFile).invocation.args;
    AbsoluteIsNotFlag(inputFile, "--output");
    AbsoluteIsNotFlag(inputFile, "--config");
    AbsoluteIsNotFlag(configFile, "--output");
    FlagValueAt(args, "--input", 1);
    FlagValueAt(args, "--config", 3);
    assert args[5] == "--json";
    if Given(outputFile) {
      FlagValueAt(args, "--output", 6);
    } else {
      FlagValueAbsent(args, "--output");
    }
  }

  /** `FlagValue` reads back exactly the caller's three paths from the validator's argument list. */
  lemma ValidateArgsDecode(cfg: Config, reportFile: string, configFile: string, sourceFile: Option<string>)
    requires ValidatePlan(cfg, reportFile, configFile, sourceFile).Launch?
    ensures var args := ValidatePlan(cfg, reportFile, configFile, sourceFile).invocation.args;
      && FlagValue(args, "--report") == Some(reportFile)
      && FlagValue(args, "--config") == Some(configFile)
      && FlagValue(args, "--source") == (if Given(sourceFile) then Some(sourceFile.value) else None)
      && "--json" in args
  {
    var args := ValidatePlan(cfg, reportFile, configFile, sourceFile).invocation.args;
    AbsoluteIsNotFlag(reportFile, "--source");
    AbsoluteIsNotFlag(reportFile, "--config");
    AbsoluteIsNotFlag(configFile, "--source");
    FlagValueAt(args, "--report", 1);
    FlagValueAt(args, "--config", 3);
    assert args[5] == "--json";
    if Given(sourceFile) {
      FlagValueAt(args, "--source", 6);
    } else {
      FlagValueAbsent(args, "--source");
    }
  }

  /**
   * A report handler's result once its plan is known: a rejection message,
   * the process's failure text, or its stdout as parsed by `JSON.parse`
   * (`parsed`, whose failure message a `SyntaxError` carries).
   */
  function ReportReply(plan: Plan, exec: ExecResult, parsed: Result<JsValue, string>): HandlerResult {
    match plan
    case Reject(message) => Error(message)
    case Launch(_) =>
      match exec
      case ExecFailed(stderr, message) => Error(FailureText(stderr, message))
      case Exited(_, _) =>
        match parsed
        case Success(v) => Text(v)
        case Failure(message) => Error(message)
  }

  /** The four checks `report_generate` makes before launching the builder. */
  predicate GenerateAccepted(inputFile: string, configFile: string) {
    IsAbsolute(inputFile) && IsAbsolute(configFile) && IsWorkbook(inputFile) && IsYaml(configFile)
  }

  /** The four checks `report_validate` makes before launching the validator. */
  predicate ValidateAccepted(reportFile: string, configFile: string) {
    IsAbsolute(reportFile) && IsAbsolute(configFile) && EndsWith(reportFile, ".xlsx") && IsYaml(configFile)
  }

  const PathMessages: set<string> :=
    {InputNotAbsolute, ConfigNotAbsolute, ReportNotAbsolute, InputNotWorkbook, ConfigNotYaml, ReportNotXlsx}

  /**
   * `report_generate` end to end. The reply is the builder's parsed JSON
   * only when the paths pass, the process exits and its stdout parses;
   * every other outcome is an error reply, never an escaping exception.
   */
  function ReportGenerate(cfg: Config, inputFile: string, configFile: string, outputFile: Option<string>,
                          exec: ExecResult, parsed: Result<JsValue, string>): (r: HandlerResult)
    ensures r.Text? || r.Error?
    ensures r.Text? <==> GenerateAccepted(inputFile, configFile) && exec.Exited? && parsed.Success?
    ensures r.Text? ==> r.value == parsed.value
    ensures !GenerateAccepted(inputFile, configFile) ==> r.Error? && r.message in PathMessages
    ensures GenerateAccepted(inputFile, configFile) && exec.ExecFailed? ==>
      r.Error? && r.message == (if exec.stderr != "" then exec.stderr else exec.message)
    ensures GenerateAccepted(inputFile, configFile) && exec.Exited? && parsed.Failure? ==> r == Error(parsed.error)
  {
    ReportReply(GeneratePlan(cfg, inputFile, configFile, outputFile), exec, parsed)
  }

  /** `report_validate` end to end, with the same shape of reply as `report_generate`. */
  function ReportValidate(cfg: Config, reportFile: string, configFile: string, sourceFile: Option<string>,
                          exec: ExecResult, parsed: Result<JsValue, string>): (r: HandlerResult)
    ensures r.Text? || r.Error?
    ensures r.Text? <==> ValidateAccepted(reportFile, configFile) && exec.Exited? && parsed.Success?
    ensures r.Text? ==> r.value == parsed.value
    ensures !ValidateAccepted(reportFile, configFile) ==> r.Error? && r.message in PathMessages
    ensures ValidateAccepted(reportFile, configFile) && exec.ExecFailed? ==>
      r.Error? && r.message == (if exec.stderr != "" then exec.stderr else exec.message)
    ensures ValidateAccepted(reportFile, configFile) && exec.Exited? && parsed.Failure? ==> r == Error(parsed.error)
  {
    ReportReply(ValidatePlan(cfg, reportFile, configFile, sourceFile), exec, parsed)
  }

  // ----- Template listing -----

  datatype Template = Template(name: string, path: string)

  /** `path.join(dir, name)` for a normalised directory and a plain directory-entry name. */
  function JoinPath(dir: string, name: string): string {
    dir + "/" + name
  }

  function TemplatesDir(builderPath: string): string {
    JoinPath(builderPath, "templates")
  }

  function NameSet(ts: seq<Template>): set<string> {
    set t | t in ts :: t.name
  }

  /** The YAML entries of a directory listing, in listing order, each with its full path. */
  function TemplateFilter(dir: string, entries: seq<string>): (r: seq<Template>)
    ensures |r| <= |entries|
    ensures forall i :: 0 <= i < |r| ==> IsYaml(r[i].name) && r[i].path == JoinPath(dir, r[i].name)
    ensures NameSet(r) == set e | e in entries && IsYaml(e)
  {
    if entries == [] then []
    else
      var rest := TemplateFilter(dir, entries[1..]);
      NameSetStep(dir, entries, rest);
      if IsYaml(entries[0]) then [Template(entries[0], JoinPath(dir, entries[0]))] + rest else rest
  }

  lemma NameSetStep(dir: string, entries: seq<string>, rest: seq<Template>)
    requires entries != []
    requires NameSet(rest) == set e | e in entries[1..] && IsYaml(e)
    ensures IsYaml(entries[0]) ==>
      NameSet([Template(entries[0], JoinPath(dir, entries[0]))] + rest) == set e | e in entries && IsYaml(e)
    ensures !IsYaml(entries[0]) ==> NameSet(rest) == set e | e in entries && IsYaml(e)
  {
    assert entries == [entries[0]] + entries[1..];
    var t := Template(entries[0], JoinPath(dir, entries[0]));
    assert NameSet([t] + rest) == {entries[0]} + NameSet(rest) by {
      assert forall u :: u in [t] + rest <==> u == t || u in rest;
    }
  }

  /** Filtering a listing piecewise gives the same list in the same order. */
  lemma {:induction false} TemplateFilterAppend(dir: string, a: seq<string>, b: seq<string>)
    ensures TemplateFilter(dir, a + b) == TemplateFilter(dir, a) + TemplateFilter(dir, b)
  {
    if a == [] {
      assert a + b == b;
    } else {
      var ab := a + b;
      assert ab[0] == a[0] && ab[1..] == a[1..] + b;
      TemplateFilterAppend(dir, a[1..], b);
      var head := if IsYaml(a[0]) then [Template(a[0], JoinPath(dir, a[0]))] else [];
      assert TemplateFilter(dir, ab) == head + TemplateFilter(dir, a[1..] + b);
      assert TemplateFilter(dir, a) == head + TemplateFilter(dir, a[1..]);
    }
  }

  function TemplateValue(t: Template): JsValue {
    Obj(map["name" := Str(t.name), "path" := Str(t.path)])
  }

  /** The `{ name, path }` entry listed for directory entry `name`. */
  function TemplateEntry(dir: string, name: string): JsValue {
    TemplateValue(Template(name, JoinPath(dir, name)))
  }

  function TemplateValues(found: seq<Template>): (items: seq<JsValue>)
    ensures |items| == |found|
    ensures forall i :: 0 <= i < |found| ==> items[i] == TemplateValue(found[i])
  {
    seq(|found|, i requires 0 <= i < |found| => TemplateValue(found[i]))
  }

  /** The listed values are the entries of exactly the YAML names in the directory. */
  lemma ListedTemplates(dir: string, entries: seq<string>, name: string)
    ensures var items := TemplateValues(TemplateFilter(dir, entries));
      TemplateEntry(dir, name) in items <==> name in entries && IsYaml(name)
  {
    var found := TemplateFilter(dir, entries);
    var items := TemplateValues(found);
    if name in entries && IsYaml(name) {
      assert name in NameSet(found);
      var t :| t in found && t.name == name;
      var i :| 0 <= i < |found| && found[i] == t;
      assert items[i] == TemplateEntry(dir, name);
    }
    if TemplateEntry(dir, name) in items {
      var i :| 0 <= i < |items| && items[i] == TemplateEntry(dir, name);
      assert items[i].fields["name"] == Str(found[i].name);
      assert found[i] in found;
      assert name in NameSet(found);
    }
  }

  /**
   * `report_list_templates` given what `readdirSync` returned for the
   * templates directory, or the message it threw.
   */
  function ReportListTemplates(builderPath: string, listing: Result<seq<string>, string>): (r: HandlerResult)
    ensures listing.Failure? ==> r == Error(listing.error)
    ensures listing.Success? ==>
      && r.Text? && r.value.Obj? && r.value.fields.Keys == {"templates"}
      && r.value.fields["templates"].Arr?
      && r.value.fields["templates"].elems == TemplateValues(TemplateFilter(TemplatesDir(builderPath), listing.value))
      && |r.value.fields["templates"].elems| <= |listing.value|
    ensures listing.Success? ==> forall name ::
      (TemplateEntry(TemplatesDir(builderPath), name) in r.value.fields["templates"].elems
       <==> name in listing.value && IsYaml(name))
  {
    match listing
    case Failure(message) => Error(message)
    case Success(entries) =>
      var dir := TemplatesDir(builderPath);
      var items := TemplateValues(TemplateFilter(dir, entries));
      assert forall name :: TemplateEntry(dir, name) in items <==> name in entries && IsYaml(name) by {
        forall name ensures TemplateEntry(dir, name) in items <==> name in entries && IsYaml(name) {
          ListedTemplates(dir, entries, name);
        }
      }
      Text(Obj(map["templates" := Arr(items)]))
  }
}

=== FILE: robot_modeler.dfy ===
/**
 * The robot-modeler tools (`tools/robot-modeler.js`): the `xmlPath` check,
 * the `scenarios` schema, and the argument lists handed to the Python CLI.
 * The processes themselves are inputs.
 */
module RobotModeler {
  import opened Wrappers
  import opened Strings
  import opened Js
  import opened Tool

  const Python: string := "python3"
  const DesignTimeoutMs: nat := 180000
  const CriticTimeoutMs: nat := 60000
  const StressTimeoutMs: nat := 300000
  const DesignScenarios: string := "20"
  const DefaultScenarios: nat := 50
  const MinScenarios: nat := 5
  const MaxScenarios: nat := 200
  const XmlNotAbsolute: string := "xmlPath는 절대경로 필수"

  /** `${ROBOT_PATH}/src/cli.py` */
  function Cli(robotPath: string): string {
    robotPath + "/src/cli.py"
  }

  /** The `PYTHONPATH` every launch sets. */
  function SrcPath(robotPath: string): string {
    robotPath + "/src"
  }

  /** The CLI path ends in `.py`, so it is never one of the flags the argument lists carry. */
  lemma CliIsNotFlag(robotPath: string, flag: string)
    requires flag == "--json" || flag == "--scenarios" || flag == "--gemini"
    ensures Cli(robotPath) != flag
  {
    var c := Cli(robotPath);
    assert c[|c| - 1] == 'y';
  }

  /** The `robot_design` launch: the prompt goes in as one argument and 20 scenarios are asked for. */
  function DesignInvocation(robotPath: string, prompt: string): Invocation {
    Invocation(Python, [Cli(robotPath), "pipeline", prompt, "--scenarios", DesignScenarios],
               robotPath, DesignTimeoutMs, Some(SrcPath(robotPath)))
  }

  /**
   * The prompt is the one argument after `pipeline`, whatever it contains.
   * `FlagValue` reads back the count 20 unless the prompt is itself the text
   * `--scenarios`, which then hides the count.
   */
  lemma DesignArgsDecode(robotPath: string, prompt: string)
    ensures var inv := DesignInvocation(robotPath, prompt);
      && |inv.args| == 5 && inv.args[0] == Cli(robotPath) && inv.args[1] == "pipeline" && inv.args[2] == prompt
      && inv.args[3..] == ["--scenarios", DesignScenarios]
      && inv.program == Python && inv.cwd == robotPath
      && (FlagValue(inv.args, "--scenarios") == Some(DesignScenarios) <==> prompt != "--scenarios")
      && inv.timeoutMs == DesignTimeoutMs && inv.pythonPath == Some(SrcPath(robotPath))
  {
    var args := DesignInvocation(robotPath, prompt).args;
    CliIsNotFlag(robotPath, "--scenarios");
    if prompt == "--scenarios" {
      FlagValueAt(args, "--scenarios", 2);
    } else {
      FlagValueAt(args, "--scenarios", 3);
    }
  }

  /** The `robot_design` result: stdout, and stderr as warnings or `null` when empty. */
  function DesignReply(exec: ExecResult): (r: HandlerResult)
    ensures exec.ExecFailed? ==> r == Error(FailureText(exec.stderr, exec.message))
    ensures exec.Exited? ==>
      && r.Text? && r.value.Obj? && r.value.fields.Keys == {"output", "warnings"}
      && r.value.fields["output"] == Str(exec.stdout)
      && (exec.stderr == "" ==> r.value.fields["warnings"] == Null)
      && (exec.stderr != "" ==> r.value.fields["warnings"] == Str(exec.stderr))
  {
    match exec
    case ExecFailed(stderr, message) => Error(FailureText(stderr, message))
    case Exited(stdout, stderr) =>
      Text(Obj(map["output" := Str(stdout), "warnings" := if stderr != "" then Str(stderr) else Null]))
  }

  /** `robot_critic` before any process runs; `gemini` defaults to false. */
  function CriticPlan(robotPath: string, xmlPath: string, jsonPath: Option<string>, gemini: Option<bool>): (p: Plan)
    ensures p.Reject? <==> !IsAbsolute(xmlPath)
    ensures p.Reject? ==> p.message == XmlNotAbsolute
    ensures p.Launch? ==>
      var args := p.invocation.args;
      && |args| == 3 + (if Given(jsonPath) then 2 else 0) + (if gemini.GetOr(false) then 1 else 0)
      && args[..3] == [Cli(robotPath), "critic", xmlPath]
      && (gemini.GetOr(false) ==> args[|args| - 1] == "--gemini")
      && p.invocation.program == Python && p.invocation.cwd == robotPath
      && p.invocation.timeoutMs == CriticTimeoutMs && p.invocation.pythonPath == Some(SrcPath(robotPath))
  {
    if !IsAbsolute(xmlPath) then Reject(XmlNotAbsolute)
    else
      var args := [Cli(robotPath), "critic", xmlPath];
      var args := if Given(jsonPath) then args + ["--json", jsonPath.value] else args;
      var args := if gemini.GetOr(false) then args + ["--gemini"] else args;
      Launch(Invocation(Python, args, robotPath, CriticTimeoutMs, Some(SrcPath(robotPath))))
  }

  /** `FlagValue` reads back the JSON path exactly when one was given, placed before `--gemini`. */
  lemma CriticArgsDecode(robotPath: string, xmlPath: string, jsonPath: Option<string>, gemini: Option<bool>)
    requires IsAbsolute(xmlPath)
    ensures var args := CriticPlan(robotPath, xmlPath, jsonPath, gemini).invocation.args;
      && FlagValue(args, "--json") == (if Given(jsonPath) then Some(jsonPath.value) else None)
      && ("--gemini" in args <==> gemini.GetOr(false) || (Given(jsonPath) && jsonPath.value == "--gemini"))
  {
    var args := CriticPlan(robotPath, xmlPath, jsonPath, gemini).invocation.args;
    CliIsNotFlag(robotPath, "--json");
    assert xmlPath[0] == '/';
    if Given(jsonPath) {
      FlagValueAt(args, "--json", 3);
    } else {
      FlagValueAbsent(args, "--json");
    }
    assert args[1] == "critic";
    CliIsNotFlag(robotPath, "--gemini");
  }

  /** What `robot_stress_test`'s schema accepts for `scenarios`: an integer in [5, 200], or nothing. */
  predicate ScenariosValid(scenarios: Option<Number>) {
    scenarios.None?
    || (Integral(scenarios.value) && MinScenarios as real <= scenarios.value.value <= MaxScenarios as real)
  }

  /** `String(scenarios || 50)` after the schema's default of 50. */
  function ScenariosArg(scenarios: Option<Number>): string {
    if scenarios.Some? && scenarios.value.value != 0.0 then scenarios.value.text
    else NatToString(DefaultScenarios)
  }

  /** `robot_stress_test` before any process runs. */
  function StressPlan(robotPath: string, xmlPath: string, jsonPath: Option<string>, scenarios: Option<Number>): (p: Plan)
    ensures p.Reject? <==> !IsAbsolute(xmlPath)
    ensures p.Reject? ==> p.message == XmlNotAbsolute
    ensures p.Launch? ==>
      var args := p.invocation.args;
      && |args| == (if Given(jsonPath) then 7 else 5)
      && args[..5] == [Cli(robotPath), "stress", xmlPath, "--scenarios", ScenariosArg(scenarios)]
      && p.invocation.program == Python && p.invocation.cwd == robotPath
      && p.invocation.timeoutMs == StressTimeoutMs && p.invocation.pythonPath == Some(SrcPath(robotPath))
  {
    if !IsAbsolute(xmlPath) then Reject(XmlNotAbsolute)
    else
      var args := [Cli(robotPath), "stress", xmlPath, "--scenarios", ScenariosArg(scenarios)];
      var args := if Given(jsonPath) then args + ["--json", jsonPath.value] else args;
      Launch(Invocation(Python, args, robotPath, StressTimeoutMs, Some(SrcPath(robotPath))))
  }

  /** The scenario argument of accepted input is the decimal count: the caller's, or 50. */
  lemma ScenariosArgValue(scenarios: Option<Number>)
    requires ScenariosValid(scenarios)
    requires scenarios.Some? ==> Canonical(scenarios.value)
    ensures var count := ScenariosArg(scenarios);
      && AllDigits(count) && 1 <= |count|
      && DigitsValue(count) == (if scenarios.Some? then scenarios.value.value.Floor as nat else DefaultScenarios)
      && MinScenarios <= DigitsValue(count) <= MaxScenarios
  {
    if scenarios.Some? {
      NatToStringRoundTrip(scenarios.value.value.Floor as nat);
    } else {
      NatToStringRoundTrip(DefaultScenarios);
    }
  }

  /**
   * For accepted input `FlagValue` reads back a scenario count in [5, 200]:
   * the caller's, or 50 when none was given; and the JSON path when given.
   */
  lemma StressArgsDecode(robotPath: string, xmlPath: string, jsonPath: Option<string>, scenarios: Option<Number>)
    requires IsAbsolute(xmlPath) && ScenariosValid(scenarios)
    requires scenarios.Some? ==> Canonical(scenarios.value)
    ensures var args := StressPlan(robotPath, xmlPath, jsonPath, scenarios).invocation.args;
      && FlagValue(args, "--scenarios") == Some(ScenariosArg(scenarios))
      && MinScenarios <= DigitsValue(ScenariosArg(scenarios)) <= MaxScenarios
      && FlagValue(args, "--json") == (if Given(jsonPath) then Some(jsonPath.value) else None)
  {
    var args := StressPlan(robotPath, xmlPath, jsonPath, scenarios).invocation.args;
    var count := ScenariosArg(scenarios);
    ScenariosArgValue(scenarios);
    CliIsNotFlag(robotPath, "--scenarios");
    CliIsNotFlag(robotPath, "--json");
    assert args[..5] == [Cli(robotPath), "stress", xmlPath, "--scenarios", count];
    assert xmlPath[0] == '/';
    assert IsDigit(count[0]);
    FlagValueAt(args, "--scenarios", 3);
    if Given(jsonPath) {
      assert args[4] != "--json";
      FlagValueAt(args, "--json", 5);
    } else {
      FlagValueAbsent(args, "--json");
    }
  }

  /** A critic or stress result: the rejection, the process failure, or `{ output: stdout }`. */
  function ProcessReply(plan: Plan, exec: ExecResult): HandlerResult {
    match plan
    case Reject(message) => Error(message)
    case Launch(_) =>
      match exec
      case ExecFailed(stderr, message) => Error(FailureText(stderr, message))
      case Exited(stdout, _) => Text(Obj(map["output" := Str(stdout)]))
  }

  /**
   * `robot_critic` end to end: path check, launch, reply. Its `try` turns
   * every failure into an error reply.
   */
  function RobotCritic(robotPath: string, xmlPath: string, jsonPath: Option<string>,
                       gemini: Option<bool>, exec: ExecResult): (r: HandlerResult)
    ensures r.Text? || r.Error?
    ensures r.Text? <==> IsAbsolute(xmlPath) && exec.Exited?
    ensures r.Text? ==> r.value.Obj? && r.value.fields == map["output" := Str(exec.stdout)]
    ensures !IsAbsolute(xmlPath) ==> r == Error(XmlNotAbsolute)
    ensures IsAbsolute(xmlPath) && exec.ExecFailed? ==>
      r.Error? && r.message == (if exec.stderr != "" then exec.stderr else exec.message)
  {
    ProcessReply(CriticPlan(robotPath, xmlPath, jsonPath, gemini), exec)
  }

  /** `robot_stress_test` end to end: schema, path check, launch, reply. */
  function RobotStressTest(robotPath: string, xmlPath: string, jsonPath: Option<string>,
                           scenarios: Option<Number>, exec: ExecResult): (r: HandlerResult)
    ensures r.InvalidArguments? <==> !ScenariosValid(scenarios)
    ensures !r.Crash?
    ensures r.Text? <==> ScenariosValid(scenarios) && IsAbsolute(xmlPath) && exec.Exited?
    ensures r.Text? ==> r.value.Obj? && r.value.fields == map["output" := Str(exec.stdout)]
    ensures ScenariosValid(scenarios) && !IsAbsolute(xmlPath) ==> r == Error(XmlNotAbsolute)
    ensures ScenariosValid(scenarios) && IsAbsolute(xmlPath) && exec.ExecFailed? ==>
      r.Error? && r.message == (if exec.stderr != "" then exec.stderr else exec.message)
  {
    if !ScenariosValid(scenarios) then InvalidArguments({"scenarios"})
    else ProcessReply(StressPlan(robotPath, xmlPath, jsonPath, scenarios), exec)
  }
}

=== FILE: strings.dfy ===
/**
 * String helpers the source gets from JavaScript's `String.prototype` and
 * from template literals: prefix and suffix tests, and the decimal rendering
 * of a non-negative integer, with its inverse.
 */
module Strings {

  /** `s.startsWith(p)`. */
  predicate StartsWith(s: string, p: string) {
    |p| <= |s| && s[..|p|] == p
  }

  /** `s.endsWith(x)`. */
  predicate EndsWith(s: string, x: string) {
    |x| <= |s| && s[|s| - |x|..] == x
  }

  /** `s.slice(0, n)` for a non-negative `n`: at most the first `n` characters. */
  function Take(s: string, n: nat): (r: string)
    ensures |r| == if |s| < n then |s| else n
    ensures StartsWith(s, r)
  {
    if |s| <= n then s else s[..n]
  }

  predicate IsDigit(c: char) {
    '0' <= c <= '9'
  }

  predicate AllDigits(s: string) {
    forall i :: 0 <= i < |s| ==> IsDigit(s[i])
  }

  function DigitChar(d: nat): (c: char)
    requires d < 10
    ensures IsDigit(c)
    ensures DigitValue(c) == d
  {
    "0123456789"[d]
  }

  function DigitValue(c: char): nat
    requires IsDigit(c)
  {
    (c as int - '0' as int) as nat
  }

  function Pow10(k: nat): (r: nat)
    ensures r >= 1
  {
    if k == 0 then 1 else 10 * Pow10(k - 1)
  }

  /**
   * `String(n)` for a non-negative integer below 10^21 (the range in which
   * JavaScript writes integers without an exponent): decimal digits, no
   * leading zero except for zero itself.
   */
  function NatToString(n: nat): (s: string)
    ensures 1 <= |s|
    ensures AllDigits(s)
    ensures s[0] == '0' <==> n == 0
  {
    if n < 10 then [DigitChar(n)] else NatToString(n / 10) + [DigitChar(n % 10)]
  }

  /** The number a string of decimal digits denotes (leading zeros allowed). */
  function DigitsValue(s: string): nat
    requires AllDigits(s)
  {
    if s == [] then 0 else DigitsValue(s[..|s| - 1]) * 10 + DigitValue(s[|s| - 1])
  }

  /** Reading back the rendering of `n` gives `n`. */
  lemma {:induction false} NatToStringRoundTrip(n: nat)
    ensures DigitsValue(NatToString(n)) == n
  {
    var s := NatToString(n);
    if n >= 10 {
      NatToStringRoundTrip(n / 10);
      assert s[..|s| - 1] == NatToString(n / 10);
    }
  }

  /** A digit string without a leading zero denotes a positive number. */
  lemma {:induction false} LeadingDigitPositive(s: string)
    requires AllDigits(s) && 1 <= |s| && s[0] != '0'
    ensures DigitsValue(s) > 0
  {
    if |s| > 1 {
      LeadingDigitPositive(s[..|s| - 1]);
    }
  }

  /** Rendering the value of a canonical digit string gives that string back. */
  lemma {:induction false} CanonicalDigitsRoundTrip(s: string)
    requires AllDigits(s) && 1 <= |s|
    requires s[0] != '0' || |s| == 1
    ensures NatToString(DigitsValue(s)) == s
  {
    if |s| > 1 {
      var p := s[..|s| - 1];
      LeadingDigitPositive(p);
      CanonicalDigitsRoundTrip(p);
      assert s == p + [s[|s| - 1]];
    }
  }

  /** A number below 10^k needs at most k digits. */
  lemma {:induction false} NatToStringLength(n: nat, k: nat)
    requires 1 <= k && n < Pow10(k)
    ensures |NatToString(n)| <= k
  {
    if n >= 10 {
      NatToStringLength(n / 10, k - 1);
    }
  }

  lemma AllDigitsAppend(a: string, b: string)
    requires AllDigits(a) && AllDigits(b)
    ensures AllDigits(a + b)
  {
    forall i | 0 <= i < |a + b| ensures IsDigit((a + b)[i]) {
      if i < |a| { assert (a + b)[i] == a[i]; } else { assert (a + b)[i] == b[i - |a|]; }
    }
  }

  /** Appending one digit shifts the value by one place. */
  lemma DigitsValueSnoc(p: string, c: char)
    requires AllDigits(p) && IsDigit(c)
    ensures AllDigits(p + [c])
    ensures DigitsValue(p + [c]) == DigitsValue(p) * 10 + DigitValue(c)
  {
    AllDigitsAppend(p, [c]);
    assert (p + [c])[..|p|] == p;
  }

  lemma ShiftDistributes(x: nat, p: nat, y: nat, d: nat)
    ensures (x * p + y) * 10 + d == x * (10 * p) + (y * 10 + d)
  {
  }

  /** The value of a concatenation of digit strings. */
  lemma {:induction false} DigitsValueAppend(a: string, b: string)
    requires AllDigits(a) && AllDigits(b)
    ensures AllDigits(a + b)
    ensures DigitsValue(a + b) == DigitsValue(a) * Pow10(|b|) + DigitsValue(b)
  {
    AllDigitsAppend(a, b);
    if b == [] {
      assert a + b == a;
    } else {
      var b' := b[..|b| - 1];
      var last := b[|b| - 1];
      assert b == b' + [last];
      assert a + b == (a + b') + [last];
      DigitsValueAppend(a, b');
      DigitsValueSnoc(a + b', last);
      DigitsValueSnoc(b', last);
      ShiftDistributes(DigitsValue(a), Pow10(|b'|), DigitsValue(b'), DigitValue(last));
    }
  }

  /** `k` zero characters. */
  function Zeros(k: nat): (z: string)
    ensures |z| == k
    ensures AllDigits(z)
    ensures DigitsValue(z) == 0
  {
    if k == 0 then "" else Zeros(k - 1) + "0"
  }
}

=== FILE: tool.dfy ===
/**
 * What a tool handler hands back to the MCP server, and the external
 * processes some handlers launch. `txt(obj)` becomes `Text(obj)` (the JSON
 * text itself is not modelled) and `err(msg)` becomes `Error(msg)`.
 */
module Tool {
  import opened Wrappers
  import opened Strings
  import opened Js

  datatype HandlerResult =
    | Text(value: JsValue)
    /** `{ content: [...msg], isError: true }` */
    | Error(message: string)
    /** An exception escaping a handler that has no `try` around it. */
    | Crash(message: string)
    /** The input schema refused these arguments; the handler never ran. */
    | InvalidArguments(fields: set<string>)

  /** One `execFile(program, args, { cwd, timeout, env })` call. */
  datatype Invocation = Invocation(
    program: string,
    args: seq<string>,
    cwd: string,
    timeoutMs: nat,
    pythonPath: Option<string>)

  /** A handler either refuses its input with a message or launches a process. */
  datatype Plan = Reject(message: string) | Launch(invocation: Invocation)

  /** How a launched process ended, as the promisified `execFile` reports it. */
  datatype ExecResult =
    | Exited(stdout: string, stderr: string)
    | ExecFailed(stderr: string, message: string)

  /** `e.stderr || e.message`: the process's stderr when it wrote any. */
  function FailureText(stderr: string, message: string): string {
    if stderr != "" then stderr else message
  }


  /** `path.startsWith('/')`: the absolute-path check every file argument must pass. */
  predicate IsAbsolute(path: string) {
    StartsWith(path, "/")
  }

  /** `s || …` for an optional string argument: present and non-empty. */
  predicate Given(s: Option<string>) {
    s.Some? && s.value != ""
  }

  /**
   * The model's own reader of a valued flag: the argument after the first
   * occurrence of `flag`, if there is one. It is not the Python programs'
   * argument parser; the decode lemmas use it to show that an argument list
   * is unambiguous.
   */
  function FlagValue(args: seq<string>, flag: string): Option<string> {
    if args == [] then None
    else if args[0] == flag then (if |args| >= 2 then Some(args[1]) else None)
    else FlagValue(args[1..], flag)
  }

  /** The first occurrence of `flag`, followed by a value, decides what `FlagValue` reads. */
  lemma {:induction false} FlagValueAt(args: seq<string>, flag: string, i: nat)
    requires i + 1 < |args| && args[i] == flag
    requires forall j :: 0 <= j < i ==> args[j] != flag
    ensures FlagValue(args, flag) == Some(args[i + 1])
  {
    if i > 0 {
      FlagValueAt(args[1..], flag, i - 1);
    }
  }

  /** A flag that never occurs reads as absent. */
  lemma {:induction false} FlagValueAbsent(args: seq<string>, flag: string)
    requires flag !in args
    ensures FlagValue(args, flag) == None
  {
    if args != [] {
      FlagValueAbsent(args[1..], flag);
    }
  }
}

=== FILE: wrappers.dfy ===
/** `Option` and `Result`, shared by every module of the model. */
module Wrappers {

  /** An optional value: the model's stand-in for JavaScript's `undefined` argument or field. */
  datatype Option<+T> = None | Some(value: T) {

    /** The wrapped value, or `default` when there is none. */
    function GetOr(default: T): T {
      match this
      case Some(v) => v
      case None => default
    }
  }

  /** A value or an error, for operations of the source that can throw. */
  datatype Result<+R, +E> = Success(value: R) | Failure(error: E)
}
